=== FILE: README.md ===
# Coach attendance panel: data rules in Dafny

The attendance panel is a Streamlit app. A coach logs in, sees their
students and records who attended. The students come from a Google
Sheets worksheet whose header and cells are typed by hand. Attendance is
appended to a second worksheet and read back from it. A shared helper
module holds the fixed user table, role routing and the per-browser
session state.

This project models the logic that sits between the sheets and the
screens. Each piece is a pure Dafny function, and lemmas state how the
pieces fit together:

- `Text`: the string primitives the app relies on, with Python's meaning:
  - `str.strip` over Python's whitespace set;
  - `str.lower`;
  - single-character `str.replace`;
  - `str(int)`;
  - Turkish-letter folding (`_simplify_token`).
- `Tables`: a sheet read into memory (columns and rows of cell text),
  standing in for the pandas frame.
- `Columns`: header normalisation and canonicalisation (`_normalize_colname`,
  `CANONICAL_COLMAP`, `_canonicalize_columns`).
- `Coaches`: the coach id/name tables, `_normalize_coach_pair` and the
  `KocID` fallback.
- `Membership`: classification of the free-text membership status into
  codes 0/1/2, labels and the active filter.
- `Students`: `load_students` after the fetch. It builds one student per
  row and keeps the active students that have an id or a name.
- `Passwords`: `load_user_dict` and `verify_password`, including the
  passwordless mode.
- `Attendance`: the row `append_yoklama_rows` writes, how
  `get_all_records` reads a sheet, and `load_yoklama`. Together they give
  a write-then-read round trip.
- `Session`:
  - `authenticate_user` and `get_role_target`;
  - `start_user_session`, `end_user_session` and `get_current_user`;
  - `require_role` and `ensure_dataframes_initialized`.

  The session state is a map that each operation returns updated.

Python's `int(float(s))` is a function parameter `parse` of type
`string -> Option<int>`, where `None` means the call raised. Every property
that does not depend on how numbers are parsed holds for every such
parser. Where a property does depend on it, the lemma says so in its
`requires`.

## Model

Some functions have no row of their own, because lemma rows state what they
compute: `Text.SimplifyToken` (app.py:36-41) under the `Text.SimplifyToken*`
rows, `Text.Lower` under the `Text.Lower*` rows, `Coaches.NumericCoachId`
(app.py:85-88) under `Coaches.NumericCoachIds`, `Membership.KeyCode`
(app.py:158-166) under `Membership.MembershipCode`, and
`Attendance.ParseKatildi`, `Attendance.LoadCell` and `Attendance.LoadRow`
(app.py:198-201) under the `Attendance.Katildi*`, `Attendance.ParseKatildi*`
and `Attendance.*RoundTrip` rows.

| member | source | states |
|---|---|---|
| Text.Strip | app.py:44 | `strip()` returns a slice of the text with only whitespace cut before and after it, has no whitespace at either end, and is `""` exactly when the text is all whitespace |
| Text.StripIdempotent | app.py:92 | stripping already stripped text changes nothing (`name = t.strip()` on a stripped `t`) |
| Text.StripClean | app.py:174-176 | text with no surrounding whitespace is its own strip |
| Text.LowerAsciiLetters | app.py:201 | `lower()` of an ASCII word is its ASCII lower case |
| Text.LowerAfterAsciiLower | app.py:201 | lower-casing the ASCII capitals first does not change what `lower()` gives |
| Text.LowerKeepsDotless | app.py:44 | `lower()` produces a dotless ı only from a dotless ı |
| Text.RemoveChar | app.py:45 | `replace(c, "")` leaves no `c`, and a character is in the result exactly when it is in the text and is not `c` |
| Text.RemoveCharCounts | app.py:45 | `replace(c, "")` keeps every other character as often as it occurs |
| Text.RemoveCharConcat | app.py:45 | `replace(c, "")` works piece by piece, so the kept characters stay in order |
| Text.RemoveAbsentChar | app.py:45 | removing a character the text does not contain changes nothing |
| Text.SimplifyTokenFolds | app.py:36-41 | folding keeps the length, leaves none of ç ğ ı ö ş ü, and changes no other character |
| Text.SimplifyTokenIdempotent | app.py:36-41 | folding folded text changes nothing |
| Text.SimplifyTokenPlain | app.py:36-41 | text with no Turkish letters is unchanged by folding |
| Text.NoDotlessAfterFoldAndLower | app.py:44 | folding then lower-casing never yields a dotless ı |
| Text.IntToString | app.py:86 | `str(n)` is the decimal digits of `n` with no leading zero (only 0 renders as `0`), preceded by `-` exactly when `n` is negative |
| Text.IntToStringInjective | app.py:86 | different numbers have different renderings |
| Text.IntToStringSingle | app.py:86-87 | `str(n)` is one character exactly when 0 <= n < 10 |
| Columns.NormalizeColname | app.py:43-45 | a normalised header holds no `_`, no space and no dotless ı |
| Columns.NormalizeAsciiName | app.py:43-45 | an ASCII-letter header normalises to its lower case |
| Columns.CanonicalizeColumns | app.py:65-75 | an empty frame is returned as is; otherwise each column is renamed to its alias target exactly when its normalised name is an alias, and the rows are untouched |
| Columns.ColmapTargets | app.py:47-63 | every alias leads to one of the six canonical columns |
| Columns.CanonicalNameFixed | app.py:47-63 | each canonical column name is an alias of itself |
| Columns.CanonicalNameStable | app.py:65-75 | a column name that has been canonicalised canonicalises to itself |
| Columns.CanonicalizeIdempotent | app.py:65-75 | canonicalising twice is canonicalising once |
| Columns.DotlessAliasUnreachable | app.py:54 | the alias `sınıf` can never be matched |
| Coaches.NormalizeCoachPair | app.py:77-94 | the four cases: a blank or `nan`/`none` cell gives no coach; a known numeric id gives that coach; a name gets its id when its lower case is known, else no id; any id returned is a known one |
| Coaches.CoachTablesInverse | app.py:21-22 | `COACH_NAME_TO_ID` is the inverse of `COACH_ID_TO_NAME` through `lower()` |
| Coaches.CoachIdInverse | app.py:21-22 | each coach id's name, lower-cased, is a key of `COACH_NAME_TO_ID` that leads back to that id |
| Coaches.NumericCoachIds | app.py:86-87 | `str(n)` is a coach id exactly when 1 <= n <= 4 |
| Coaches.CoachPairConsistent | app.py:77-94 | a returned id and name name the same coach up to letter case |
| Coaches.CoachPairIdempotent | app.py:77-94 | normalising the resolved name gives the same pair, when coach names do not parse as numbers |
| Coaches.CoachNameResolves | app.py:91-94 | each coach's table name resolves to that coach and its id |
| Coaches.FillCoachId | app.py:144-150 | a pair with an id is kept; otherwise a non-blank stripped `KocID` becomes the id, with the table's name when the id is known |
| Coaches.ResolveCoach | app.py:139-153 | the resolved coach has no id exactly when the `Koc` cell gave none and the stripped `KocID` cell is empty |
| Membership.MembershipCode | app.py:156-167 | word lists give their fixed code; otherwise a parsed 0, 1 or 2 gives itself and anything else gives 1; the code is always 0, 1 or 2 |
| Membership.WordSetsDisjoint | app.py:159-161 | no status word is listed under two codes |
| Membership.MembershipLabel | app.py:168 | a known code gets its label, any other code `""` |
| Membership.LabelRoundTrip | app.py:156-168 | classifying a label gives back its code, whatever the number parser |
| Membership.BlankStatusIsActive | app.py:162-166 | a blank status counts as active when the parser rejects `""` |
| Membership.DotlessStatusWordsUnreachable | app.py:160-161 | the words `askıya` and `kapalı` can never be matched |
| Students.StudentOf | app.py:132-176 | a built student has the stripped `OgrenciID`, `AdSoyad` and `Grup` cells, the coach resolved from its `Koc` and `KocID` cells, and the code of its status cell with that code's label; it has no coach id exactly when neither coach cell gives one |
| Students.ResolvedCoachClean | app.py:139-153 | the resolved coach has no surrounding whitespace and keeps an id taken from `Koc` |
| Students.KeepListed | app.py:170-178 | the filters keep exactly the students with an active code and an id or a name |
| Students.KeepListedCounts | app.py:170-178 | each kept student is kept as often as it occurs, and every other student is dropped |
| Students.KeepListedConcat | app.py:170-178 | the filters work row by row, so the kept students stay in row order |
| Students.KeptStudentsExactly | app.py:170-178 | the kept students are exactly the listed ones built from some row |
| Students.InAllStudents | app.py:132-176 | a student is among those built from the sheet exactly when some row builds it |
| Students.LoadStudents | app.py:118-180 | an empty sheet gives no students; the result holds exactly the listed students built from the canonicalised rows, each active, labelled, with an id or a name, and stripped |
| Students.LoadStudentsCounts | app.py:118-180 | each listed student is in the result as often as a row builds it |
| Students.LoadStudentsConcat | app.py:118-180 | the students of rows `a` then `b` are those of `a` followed by those of `b` |
| Passwords.VerifyPassword | app.py:284-291 | an unknown user is refused; an empty or missing stored password admits any input; otherwise the typed password must match |
| Passwords.LoadUserDict | app.py:275-282 | secrets win when present; otherwise one passwordless user per non-empty coach name of the students |
| Passwords.PasswordlessLogin | app.py:275-291 | with no secrets a login succeeds exactly for a coach name of a loaded student, whatever the password |
| Attendance.KatildiText | app.py:222 | the flag is written as `TRUE` exactly when present and `FALSE` exactly when absent |
| Attendance.ParseKatildiIgnoresCase | app.py:201 | the reading of a `Katildi` cell does not depend on the case of its ASCII letters |
| Attendance.KatildiPresentReadings | app.py:201 | `TRUE`, `Evet` and `1` read as present |
| Attendance.KatildiAbsentReadings | app.py:201 | `FALSE`, `0` and the empty cell read as absent |
| Attendance.RowOf | app.py:215-225 | a written row has one cell per header column |
| Attendance.RowFollowsHeader | app.py:212-225 | every cell of a written row sits under the header of the field it holds |
| Attendance.AppendRows | app.py:210-227 | an empty sheet first gets the header; existing rows are kept and one row per record is appended in order |
| Attendance.GetAllRecords | app.py:188 | the first row names the columns and every later row becomes a record of that width |
| Attendance.LoadAttendance | app.py:195-202 | an empty frame gives the fixed header with no rows; otherwise rows are kept, the five text columns stripped and `Katildi` turned into a flag |
| Attendance.KatildiRoundTrip | app.py:198-225 | a written flag reads back as itself |
| Attendance.RowRoundTrip | app.py:198-225 | a written row, stored as verbatim text, reads back as the record's fields, with `Grup`, `OgrenciID`, `AdSoyad`, `Koc` and `Not` stripped and the flag restored |
| Attendance.CleanRowRoundTrip | app.py:198-225 | a record with no whitespace around those five fields reads back exactly as written |
| Attendance.AppendThenFetch | app.py:188-227 | records appended to an empty or headed sheet are fetched back under the header, after the earlier rows, each as the row written for it |
| Attendance.AppendThenLoad | app.py:183-227 | any records appended to an empty or headed sheet of verbatim text cells read back as the last rows, in order, under the header, with the five text fields stripped and the flags restored |
| Session.AuthenticateUser | common.py:38-42 | a user is returned exactly when the name is stored and the password matches, and it is the stored user |
| Session.UsersKeyedByName | common.py:21-30 | an authenticated user has the name that was typed |
| Session.GetRoleTarget | common.py:86-87 | a role has a page exactly when it is in `ROLE_PAGES`, and it is that page |
| Session.RoleTargets | common.py:32-35 | `crm` and `coach` go to their pages; every other role has none |
| Session.StoredRolesRouted | common.py:21-35 | every stored user's role has a page |
| Session.Truthy | common.py:61 | asking the truth of a table raises; otherwise a value is false exactly when it is `None`, `False`, `0` or `""` |
| Session.StartUserSession | common.py:45-51 | the four login keys are written; the coach code is written only when non-empty, and otherwise the `coach_code` key keeps both its presence and its value; no other key changes |
| Session.EndUserSession | common.py:54-57 | exactly the five login keys are removed |
| Session.EndUserSessionIdempotent | common.py:54-57 | logging out twice is logging out once |
| Session.GetCurrentUser | common.py:60-68 | an error exactly when `authenticated` holds a table; no user when it is falsy, and a user whenever it is truthy, with the stored fields, the display name falling back to the user name only when its key is missing |
| Session.StartThenCurrent | common.py:45-68 | after a login the current user is the one who logged in |
| Session.EndThenStart | common.py:45-68 | after a logout nobody is logged in, and a later login carries no coach code from the earlier one |
| Session.RequireRole | common.py:71-77 | access is granted exactly when the current user has the requested role; an error arises exactly when the session or the user's role holds a table, whose truth value raises; in every other case the visitor goes to `crm.py` |
| Session.LoginGrantsOwnRole | common.py:38-77 | a successful login grants its own role's pages and no other role's |
| Session.EnsureDataframesInitialized | common.py:90-111 | each missing table is seeded and no present entry is overwritten |
| Session.EnsureDataframesIdempotent | common.py:90-111 | seeding twice is seeding once |
| Session.TablesAndLoginIndependent | common.py:54-111 | seeding the tables leaves the current user unchanged, and logging out leaves the tables alone |
| Session.LoginKeysDecide | common.py:60-68 | two states that agree on the login keys have the same current user |

## Left out

- The Google Sheets and Streamlit I/O is not modelled. That covers credentials, opening worksheets, caching, error banners and page switching. Each sheet is a value passed in, and each write is a function returning the new sheet.
- The `WorksheetNotFound` and read-failure branches of `load_students` and `load_yoklama` return the same empty frame as an empty sheet. The model covers only the empty-sheet branch.
- `get_students_for_coach` is not modelled. It depends on pandas masking, `drop_duplicates` and `sort_values` over the loaded frame.
- `login_view`, `render_logout_button`, the pages and `crm.py` are user interface and are not modelled.
- `TRUTHY_STRINGS` and `ATTENDANCE_OPTIONS` are not used by any modelled operation.
- Text.Lower: only these characters are lower-cased, and every other character is left unchanged:
  - the capitals of ASCII, Latin-1 and Latin Extended-A;
  - İ, which lowers to "i" plus a combining dot;
  - the Kelvin sign, which lowers to `k`;
  - the Angstrom sign, which lowers to `å`.

  Python also lowers the capitals of Latin Extended-B and later Latin blocks, Greek, Cyrillic and other scripts. None of those lowers to an ASCII character or to one of ç ğ ı ö ş ü, and every key the app compares with is spelled in those. So a text matches a column alias, a coach name, `nan`/`none`, a status word or a `Katildi` word exactly as it would in Python. The strings that `Text.Lower`, `Columns.NormalizeColname` and `Membership.StatusKey` return can still differ from Python's for such text.
- Text.Replace: only single-character replacement is modelled, which is all the app uses.
- Tables.Cell: every cell is its `str()` text.
  - gspread's conversion of numeric-looking cells is not modelled, so a cell `"007"` stays text where the sheet would give the number `7`.
  - A sheet in which two or more headers canonicalise to the same one of the six canonical columns (`ID` and `OgrenciID`, say, or `Durum` and `UyelikDurumu`) is outside the model. The model reads the first such column. In the app, `df[name]` is then a frame rather than a column:
    - `Koc` (app.py:140) and `UyelikDurumu` (app.py:157): the loops walk column labels rather than cells, producing one entry per duplicated column. The assignments at app.py:152 and app.py:167 then fail on the length mismatch, unless the row count equals the column count. For `Koc`, each label yields an empty id, so app.py:147 first reads `df.loc[i, "KocID"]` for every label index `i`, which raises `KeyError` outside any `try` when the sheet has fewer data rows than such columns.
    - `KocID` (app.py:147): `str(df.loc[i, "KocID"])` is the printed row of both cells, a multi-line text that becomes the coach id.
    - `OgrenciID`, `AdSoyad` and `Grup` (app.py:174-178): the clean-up assigns and compares whole frames rather than one column per name.
- Students.LoadStudents: the `UyelikDurumuKodu` column is carried on each student. The column order of the returned frame is not modelled.
- Students.LoadStudents: a `Student` keeps only the seven columns the app reads or computes. The frame the app returns (app.py:180) also carries every other sheet column, and the model drops those.
- Session.EnsureDataframesInitialized: the demo student row it seeds keeps dates and numbers as opaque scalars. The date objects are not checked beyond their fields.
- Attendance.AppendRows: records are complete `Record` values. In a record dictionary with missing keys, each missing text field is written as `""`, and a missing `Katildi` is written as `FALSE` (app.py:222). The sheet's `USER_ENTERED` interpretation of the written cells (app.py:227) is not modelled.
- Attendance.RowRoundTrip: assumes the sheet returns each written cell as the same text. With `value_input_option="USER_ENTERED"` (app.py:227) the sheet parses every cell as if typed: a `Not` starting with `=` becomes a formula and reads back as its result or `#ERROR!`, an `OgrenciID` such as `007` reads back as `7` (and `get_all_records`, app.py:188, returns it as a number), a `Tarih` may be re-rendered as a date, and `TRUE`/`FALSE` become booleans.
- Attendance.AppendThenLoad: rests on the same assumption as `Attendance.RowRoundTrip`, that the sheet stores written cells verbatim; the cases above are not covered.
- Membership.MembershipCode: `int(float(s))` is the parameter `parse`. The only property of it that any lemma assumes is stated in that lemma's `requires`.

=== FILE: attendance.dfy ===
/** The attendance sheet: the row layout `append_yoklama_rows` writes, the
    `Katildi` flag written as text and read back by `load_yoklama`, and the
    sheet as `get_all_records` hands it to pandas. */
module Attendance {
  import opened Text
  import opened Tables

  /** The header row of the attendance sheet, in column order. */
  const Header: seq<string> :=
    ["Tarih", "Grup", "OgrenciID", "AdSoyad", "Koc", "Katildi", "Not", "Timestamp"]

  /** One attendance record as the panel builds it. */
  datatype Record = Record(
    date: string,       // Tarih
    group: string,      // Grup
    studentId: string,  // OgrenciID
    name: string,       // AdSoyad
    coach: string,      // Koc
    present: bool,      // Katildi
    note: string,       // Not
    timestamp: string   // Timestamp
  )

  /** The `Katildi` cell text: `"TRUE"` when present, `"FALSE"` when not. */
  function KatildiText(present: bool): (t: string)
    ensures t == "TRUE" <==> present
    ensures t == "FALSE" <==> !present
  {
    if present then "TRUE" else "FALSE"
  }

  /** The lower-cased spellings `load_yoklama` reads as "attended". */
  const TrueWords: set<string> := {"true", "1", "evet", "yes"}

  /** `load_yoklama`'s reading of one `Katildi` cell. */
  function ParseKatildi(cell: string): (present: bool)
  {
    Lower(cell) in TrueWords
  }

  /** Reading a `Katildi` cell ignores the case of its ASCII letters. */
  lemma ParseKatildiIgnoresCase(cell: string)
    ensures ParseKatildi(AsciiLower(cell)) == ParseKatildi(cell)
  {
    LowerAfterAsciiLower(cell);
  }

  /** `TRUE`, `Evet` and `1` read as present. */
  lemma KatildiPresentReadings()
    ensures ParseKatildi("TRUE") && ParseKatildi("Evet") && ParseKatildi("1")
  {
    ReadsAs("TRUE", "true");
    ReadsAs("Evet", "evet");
    assert Lower("1") == "1";
  }

  /** `FALSE`, `0` and the empty cell read as absent. */
  lemma KatildiAbsentReadings()
    ensures !ParseKatildi("FALSE") && !ParseKatildi("0") && !ParseKatildi("")
  {
    ReadsAs("FALSE", "false");
    assert Lower("0") == "0";
  }

  /** A cell of ASCII letters reads as its lower-case spelling. */
  lemma ReadsAs(cell: string, lower: string)
    requires forall i :: 0 <= i < |cell| ==> 'A' <= cell[i] <= 'Z' || 'a' <= cell[i] <= 'z'
    requires AsciiLower(cell) == lower
    ensures ParseKatildi(cell) == (lower in TrueWords)
  {
    LowerAsciiLetters(cell);
  }

  /** The text a record puts under the column called `column`. */
  function Field(r: Record, column: string): string {
    match column
    case "Tarih" => r.date
    case "Grup" => r.group
    case "OgrenciID" => r.studentId
    case "AdSoyad" => r.name
    case "Koc" => r.coach
    case "Katildi" => KatildiText(r.present)
    case "Not" => r.note
    case "Timestamp" => r.timestamp
    case _ => ""
  }

  /** The row `append_yoklama_rows` writes for one record: eight cells,
      each the record's field for the header column above it. */
  function RowOf(r: Record): (row: seq<string>)
    ensures |row| == |Header|
  {
    [r.date, r.group, r.studentId, r.name, r.coach, KatildiText(r.present), r.note, r.timestamp]
  }

  /** Each cell of a written row sits under the header of the field it
      holds: the row follows the header order. */
  lemma RowFollowsHeader(r: Record)
    ensures forall i :: 0 <= i < |Header| ==> RowOf(r)[i] == Field(r, Header[i])
  {
  }

  /** The sheet after `append_yoklama_rows`: an empty sheet first gets the
      header row (even when there is nothing to append); then one row per
      record is appended below the existing rows, in record order. */
  function AppendRows(sheet: seq<seq<string>>, records: seq<Record>): (r: seq<seq<string>>)
    ensures sheet == [] ==> |r| == 1 + |records| && r[0] == Header
    ensures sheet != [] ==> |r| == |sheet| + |records| && r[..|sheet|] == sheet
    ensures forall k :: 0 <= k < |records| ==> r[|r| - |records| + k] == RowOf(records[k])
    decreases |records|
  {
    if records == [] then (if sheet == [] then [Header] else sheet)
    else AppendRows(sheet, records[..|records| - 1]) + [RowOf(records[|records| - 1])]
  }

  /** A row cut or padded with `""` to the header's width. */
  function Fit(row: seq<string>, width: nat): (r: seq<string>)
    ensures |r| == width
    ensures forall j :: 0 <= j < width ==> r[j] == (if j < |row| then row[j] else "")
  {
    seq(width, j requires 0 <= j < width => if j < |row| then row[j] else "")
  }

  /** `get_all_records`: the first row names the columns, every later row
      is a record of that width; an empty sheet has no columns and no rows. */
  function GetAllRecords(sheet: seq<seq<string>>): (g: Grid<string>)
    ensures sheet == [] ==> g == Grid([], [])
    ensures sheet != [] ==> g.columns == sheet[0] && |g.rows| == |sheet| - 1
    ensures sheet != [] ==> forall k :: 0 <= k < |g.rows| ==> g.rows[k] == Fit(sheet[k + 1], |sheet[0]|)
  {
    if sheet == [] then Grid([], []) else Grid(sheet[0], FitRows(sheet[1..], |sheet[0]|))
  }

  /** Every row fitted to the same width, in order. */
  function FitRows(rows: seq<seq<string>>, width: nat): (r: seq<seq<string>>)
    ensures |r| == |rows|
    ensures forall k :: 0 <= k < |rows| ==> r[k] == Fit(rows[k], width)
  {
    if rows == [] then [] else [Fit(rows[0], width)] + FitRows(rows[1..], width)
  }

  /** A cell of the loaded attendance table. */
  datatype Value = Str(text: string) | Flag(flag: bool)

  /** The columns whose text `load_yoklama` strips. */
  const StrippedColumns: set<string> := {"Grup", "OgrenciID", "AdSoyad", "Koc", "Not"}

  /** One cell as `load_yoklama` leaves it. */
  function LoadCell(column: string, cell: string): Value {
    if column in StrippedColumns then Str(Strip(cell))
    else if column == "Katildi" then Flag(ParseKatildi(cell))
    else Str(cell)
  }

  /** One record as `load_yoklama` leaves it; cells beyond the header are
      left as text. */
  function LoadRow(columns: seq<string>, row: seq<string>): (r: seq<Value>)
    ensures |r| == |row|
    ensures forall j :: 0 <= j < |row| && j < |columns| ==> r[j] == LoadCell(columns[j], row[j])
  {
    seq(|row|, j requires 0 <= j < |row| =>
      if j < |columns| then LoadCell(columns[j], row[j]) else Str(row[j]))
  }

  /** `load_yoklama` on the fetched records: an empty frame becomes an
      empty table with the fixed header; otherwise the columns are kept,
      the five text columns are stripped and `Katildi` becomes a flag. */
  function LoadAttendance(g: Grid<string>): (r: Grid<Value>)
    ensures g.IsEmpty() ==> r == Grid(Header, [])
    ensures !g.IsEmpty() ==> r.columns == g.columns && |r.rows| == |g.rows|
    ensures !g.IsEmpty() ==> forall k :: 0 <= k < |g.rows| ==> r.rows[k] == LoadRow(g.columns, g.rows[k])
  {
    if g.IsEmpty() then Grid(Header, []) else Grid(g.columns, LoadRows(g.columns, g.rows))
  }

  /** Every row loaded under the same columns, in order. */
  function LoadRows(columns: seq<string>, rows: seq<seq<string>>): (r: seq<seq<Value>>)
    ensures |r| == |rows|
    ensures forall k :: 0 <= k < |rows| ==> r[k] == LoadRow(columns, rows[k])
  {
    if rows == [] then [] else [LoadRow(columns, rows[0])] + LoadRows(columns, rows[1..])
  }

  /** A record's fields as table values, the flag as a boolean. */
  function Decoded(r: Record): seq<Value> {
    [Str(r.date), Str(r.group), Str(r.studentId), Str(r.name), Str(r.coach),
     Flag(r.present), Str(r.note), Str(r.timestamp)]
  }

  /** The record with the five text fields `load_yoklama` strips stripped. */
  function Stripped(r: Record): Record {
    r.(group := Strip(r.group), studentId := Strip(r.studentId), name := Strip(r.name),
       coach := Strip(r.coach), note := Strip(r.note))
  }

  /** The text fields `load_yoklama` strips carry no surrounding whitespace. */
  predicate CleanRecord(r: Record) {
    Strip(r.group) == r.group && Strip(r.studentId) == r.studentId && Strip(r.name) == r.name
    && Strip(r.coach) == r.coach && Strip(r.note) == r.note
  }

  /** `"TRUE"` and `"FALSE"` read back as the flag they were written from. */
  lemma KatildiRoundTrip(present: bool)
    ensures ParseKatildi(KatildiText(present)) == present
  {
    var t := KatildiText(present);
    LowerAsciiLetters(t);
    if present {
      assert AsciiLower(t) == "true";
    } else {
      assert AsciiLower(t) == "false";
    }
  }

  /** Reading back one written row gives the record's fields, the five
      stripped columns stripped and the `Katildi` text turned back into the
      original flag. */
  lemma RowRoundTrip(r: Record)
    ensures LoadRow(Header, RowOf(r)) == Decoded(Stripped(r))
  {
    var out := LoadRow(Header, RowOf(r));
    var d := Decoded(Stripped(r));
    RowCellRoundTrip(r, 0);
    RowCellRoundTrip(r, 1);
    RowCellRoundTrip(r, 2);
    RowCellRoundTrip(r, 3);
    RowCellRoundTrip(r, 4);
    RowCellRoundTrip(r, 5);
    RowCellRoundTrip(r, 6);
    RowCellRoundTrip(r, 7);
    SameRow(out, d);
  }

  /** Cell `j` of a written row reads back as field `j` of the record,
      stripped where the column is stripped. */
  lemma RowCellRoundTrip(r: Record, j: nat)
    requires j < 8
    ensures |LoadRow(Header, RowOf(r))| == 8 && LoadRow(Header, RowOf(r))[j] == Decoded(Stripped(r))[j]
  {
    var column := Header[j];
    var cell := RowOf(r)[j];
    assert LoadRow(Header, RowOf(r))[j] == LoadCell(column, cell);
    if j == 0 || j == 7 {
      KeepsCell(column, cell);
    } else if j == 5 {
      KatildiCell(column, r.present);
    } else {
      StripsCell(column, cell);
    }
  }

  /** Two rows of eight values that agree cell by cell are equal. */
  lemma SameRow(a: seq<Value>, b: seq<Value>)
    requires |a| == 8 && |b| == 8
    requires a[0] == b[0] && a[1] == b[1] && a[2] == b[2] && a[3] == b[3]
    requires a[4] == b[4] && a[5] == b[5] && a[6] == b[6] && a[7] == b[7]
    ensures a == b
  {
    assert forall j :: 0 <= j < 8 ==> a[j] == b[j];
  }

  /** A record with no whitespace around its stripped fields reads back
      exactly as written. */
  lemma CleanRowRoundTrip(r: Record)
    requires CleanRecord(r)
    ensures LoadRow(Header, RowOf(r)) == Decoded(r)
  {
    RowRoundTrip(r);
    assert Stripped(r) == r;
  }

  /** The `Katildi` column turns the written text back into the flag. */
  lemma KatildiCell(column: string, present: bool)
    requires column == "Katildi"
    ensures LoadCell(column, KatildiText(present)) == Flag(present)
  {
    KatildiRoundTrip(present);
    assert column !in StrippedColumns;
  }

  /** A stripped column strips its cell. */
  lemma StripsCell(column: string, cell: string)
    requires column in StrippedColumns
    ensures LoadCell(column, cell) == Str(Strip(cell))
  {
  }

  /** `Tarih` and `Timestamp` are read as they are. */
  lemma KeepsCell(column: string, cell: string)
    requires column == "Tarih" || column == "Timestamp"
    ensures LoadCell(column, cell) == Str(cell)
  {
    assert column !in StrippedColumns;
  }

  /** The records a sheet holds below its header row, before appending. */
  function RowsBefore(sheet: seq<seq<string>>): nat {
    if sheet == [] then 0 else |sheet| - 1
  }

  /** `g` has the header's columns and, after `base` earlier rows, exactly
      the records' written rows. */
  predicate FetchedAs(g: Grid<string>, base: nat, records: seq<Record>) {
    g.columns == Header && |g.rows| == base + |records|
    && forall k :: 0 <= k < |records| ==> g.rows[base + k] == RowOf(records[k])
  }

  /** `out` has the header's columns and, after `base` earlier rows,
      exactly the records' fields with their flags. */
  predicate LoadedAs(out: Grid<Value>, base: nat, records: seq<Record>) {
    out.columns == Header && |out.rows| == base + |records|
    && forall k :: 0 <= k < |records| ==> out.rows[base + k] == Decoded(Stripped(records[k]))
  }

  /** Records appended to an empty sheet, or to one that starts with the
      header, are fetched back as the header's columns with the records'
      rows last, in order. */
  lemma AppendThenFetch(sheet: seq<seq<string>>, records: seq<Record>)
    requires sheet == [] || sheet[0] == Header
    ensures FetchedAs(GetAllRecords(AppendRows(sheet, records)), RowsBefore(sheet), records)
  {
    var written := AppendRows(sheet, records);
    assert written[0] == Header;
    FetchWritten(written, records, RowsBefore(sheet));
  }

  /** A sheet holding the header, `base` earlier rows and then one row per
      record is fetched as the header's columns with those records last. */
  lemma FetchWritten(written: seq<seq<string>>, records: seq<Record>, base: nat)
    requires |written| == 1 + base + |records| && written[0] == Header
    requires forall k :: 0 <= k < |records| ==> written[1 + base + k] == RowOf(records[k])
    ensures FetchedAs(GetAllRecords(written), base, records)
  {
    var g := GetAllRecords(written);
    forall k | 0 <= k < |records|
      ensures g.rows[base + k] == RowOf(records[k])
    {
      assert g.rows[base + k] == Fit(written[1 + base + k], |Header|);
      FitWhole(RowOf(records[k]), |Header|);
    }
  }

  /** A row that already has the header's width is fetched unchanged. */
  lemma FitWhole(row: seq<string>, width: nat)
    requires |row| == width
    ensures Fit(row, width) == row
  {
  }

  /** Records appended to an empty sheet, or to one that starts with the
      header, are read back by `load_yoklama` as the header's columns with
      the records as the last rows, in order, flags restored and the five
      text columns stripped. */
  lemma AppendThenLoad(sheet: seq<seq<string>>, records: seq<Record>)
    requires sheet == [] || sheet[0] == Header
    ensures LoadedAs(LoadAttendance(GetAllRecords(AppendRows(sheet, records))), RowsBefore(sheet), records)
  {
    AppendThenFetch(sheet, records);
    LoadFetched(GetAllRecords(AppendRows(sheet, records)), records, RowsBefore(sheet));
  }

  /** A fetched table with the header's columns and the records' rows
      last loads those rows back as the records' stripped fields. */
  lemma LoadFetched(g: Grid<string>, records: seq<Record>, base: nat)
    requires FetchedAs(g, base, records)
    ensures LoadedAs(LoadAttendance(g), base, records)
  {
    var out := LoadAttendance(g);
    if !g.IsEmpty() {
      forall k | 0 <= k < |records|
        ensures out.rows[base + k] == Decoded(Stripped(records[k]))
      {
        assert out.rows[base + k] == LoadRow(Header, RowOf(records[k]));
        RowRoundTrip(records[k]);
      }
    }
  }
}

=== FILE: coaches.dfy ===
/** Coach identity resolution in the student sheet: `COACH_ID_TO_NAME`,
    `COACH_NAME_TO_ID`, `_normalize_coach_pair` and the `KocID` fallback
    of `load_students`. */
module Coaches {
  import opened Wrappers
  import opened Text

  /** `COACH_ID_TO_NAME`. */
  const CoachIdToName: map<string, string> :=
    map["1" := "GOKHAN", "2" := "SINAN", "3" := "EMRE", "4" := "TUGAY"]

  /** `COACH_NAME_TO_ID`: the lower-cased names mapped back to their ids. */
  const CoachNameToId: map<string, string> :=
    map["gokhan" := "1", "sinan" := "2", "emre" := "3", "tugay" := "4"]

  /** A coach reference as the sheet stores it: display name and id, either
      of which may be `""`. */
  datatype CoachRef = CoachRef(name: string, id: string)

  /** `t.lower() in {"nan", "none"}` or empty: a cell holding no coach. */
  predicate IsBlankCoach(t: string) {
    t == "" || Lower(t) == "nan" || Lower(t) == "none"
  }

  /** The id `str(int(float(t)))` yields when it is a known coach id. */
  function NumericCoachId(parse: IntParse, t: string): (r: Option<string>)
    ensures r.Some? ==> r.value in CoachIdToName
  {
    match parse(t)
    case Some(n) => if IntToString(n) in CoachIdToName then Some(IntToString(n)) else None
    case None => None
  }

  /** `_normalize_coach_pair`: a blank cell gives no coach; a number naming
      a known id gives that coach; a known name (any case) gives the
      stripped text with its id; anything else keeps the stripped text
      with no id. */
  function NormalizeCoachPair(parse: IntParse, raw: string): (r: CoachRef)
    ensures r.id != "" ==> r.id in CoachIdToName
    ensures IsBlankCoach(Strip(raw)) ==> r == CoachRef("", "")
    ensures !IsBlankCoach(Strip(raw)) && NumericCoachId(parse, Strip(raw)).Some? ==>
      var id := NumericCoachId(parse, Strip(raw)).value;
      r == CoachRef(CoachIdToName[id], id)
    ensures !IsBlankCoach(Strip(raw)) && NumericCoachId(parse, Strip(raw)).None? ==>
      r.name == Strip(raw)
      && (Lower(Strip(raw)) in CoachNameToId ==> r.id == CoachNameToId[Lower(Strip(raw))])
      && (Lower(Strip(raw)) !in CoachNameToId ==> r.id == "")
  {
    CoachTablesInverse();
    var t := Strip(raw);
    if IsBlankCoach(t) then CoachRef("", "")
    else match NumericCoachId(parse, t)
      case Some(id) => CoachRef(CoachIdToName[id], id)
      case None => CoachRef(t, if Lower(t) in CoachNameToId then CoachNameToId[Lower(t)] else "")
  }

  /** Each coach name lower-cases to its key in `COACH_NAME_TO_ID`. */
  lemma LowerCoachName(name: string, key: string)
    requires |name| == |key|
    requires forall i :: 0 <= i < |name| ==> 'A' <= name[i] <= 'Z' && key[i] == (name[i] as int + 32) as char
    ensures Lower(name) == key
  {
    LowerAsciiLetters(name);
    assert AsciiLower(name) == key;
  }

  /** One entry of `COACH_ID_TO_NAME` read back through `COACH_NAME_TO_ID`. */
  lemma CoachIdInverse(id: string)
    requires id in CoachIdToName
    ensures Lower(CoachIdToName[id]) in CoachNameToId && CoachNameToId[Lower(CoachIdToName[id])] == id
  {
    if id == "1" {
      CoachEntryInverse(id, "gokhan");
    } else if id == "2" {
      CoachEntryInverse(id, "sinan");
    } else if id == "3" {
      CoachEntryInverse(id, "emre");
    } else {
      CoachEntryInverse(id, "tugay");
    }
  }

  /** An id whose upper-case name lower-cases to `key` is found again
      under `key`. */
  lemma CoachEntryInverse(id: string, key: string)
    requires id in CoachIdToName && key in CoachNameToId && CoachNameToId[key] == id
    requires |CoachIdToName[id]| == |key|
    requires forall i :: 0 <= i < |key| ==>
      'A' <= CoachIdToName[id][i] <= 'Z' && key[i] == (CoachIdToName[id][i] as int + 32) as char
    ensures Lower(CoachIdToName[id]) in CoachNameToId && CoachNameToId[Lower(CoachIdToName[id])] == id
  {
    LowerCoachName(CoachIdToName[id], key);
  }

  /** One key of `COACH_NAME_TO_ID` read back through `COACH_ID_TO_NAME`. */
  lemma CoachKeyInverse(key: string)
    requires key in CoachNameToId
    ensures CoachNameToId[key] in CoachIdToName && Lower(CoachIdToName[CoachNameToId[key]]) == key
  {
    var id := CoachNameToId[key];
    CoachIdInverse(id);
  }

  /** `COACH_NAME_TO_ID` is exactly the inverse of `COACH_ID_TO_NAME`
      taken through `lower()`. */
  lemma CoachTablesInverse()
    ensures forall id :: id in CoachIdToName ==>
      Lower(CoachIdToName[id]) in CoachNameToId && CoachNameToId[Lower(CoachIdToName[id])] == id
    ensures forall n :: n in CoachNameToId ==>
      CoachNameToId[n] in CoachIdToName && Lower(CoachIdToName[CoachNameToId[n]]) == n
  {
    forall id | id in CoachIdToName
      ensures Lower(CoachIdToName[id]) in CoachNameToId && CoachNameToId[Lower(CoachIdToName[id])] == id
    {
      CoachIdInverse(id);
    }
    forall n | n in CoachNameToId
      ensures CoachNameToId[n] in CoachIdToName && Lower(CoachIdToName[CoachNameToId[n]]) == n
    {
      CoachKeyInverse(n);
    }
  }

  /** `str(n)` is a coach id exactly when 1 <= n <= 4. */
  lemma NumericCoachIds(n: int)
    ensures IntToString(n) in CoachIdToName <==> 1 <= n <= 4
  {
    var t := IntToString(n);
    IntToStringSingle(n);
    if 0 <= n < 10 {
      IntToStringDigit(n);
      DigitCoachId(n);
    } else if t in CoachIdToName {
      CoachNameEdges(t);
    }
  }

  /** A one-digit text is a coach id exactly for the digits 1 to 4. */
  lemma DigitCoachId(n: int)
    requires 0 <= n < 10
    ensures [DigitChar(n)] in CoachIdToName <==> 1 <= n <= 4
  {
  }

  /** Whatever the branch, a returned id and name describe the same coach:
      the name is the table's name for that id, up to letter case. */
  lemma CoachPairConsistent(parse: IntParse, raw: string)
    ensures var r := NormalizeCoachPair(parse, raw);
      r.id != "" ==> Lower(r.name) == Lower(CoachIdToName[r.id])
  {
    CoachTablesInverse();
  }

  /** The numbers `str(int(float(..)))` can never make from a coach name. */
  predicate NamesAreNotNumbers(parse: IntParse) {
    parse("GOKHAN").None? && parse("SINAN").None? && parse("EMRE").None? && parse("TUGAY").None?
  }

  /** Normalising the name a pair resolved to resolves to the same pair,
      provided the coach names do not parse as numbers. */
  lemma CoachPairIdempotent(parse: IntParse, raw: string)
    requires NamesAreNotNumbers(parse)
    ensures var r := NormalizeCoachPair(parse, raw);
      NormalizeCoachPair(parse, r.name) == r
  {
    var t := Strip(raw);
    var r := NormalizeCoachPair(parse, raw);
    if IsBlankCoach(t) {
      assert r.name == "";
      assert IsBlankCoach(Strip(r.name));
    } else if NumericCoachId(parse, t).Some? {
      CoachNameResolves(parse, NumericCoachId(parse, t).value);
    } else {
      StripIdempotent(raw);
      assert Strip(r.name) == t;
    }
  }

  /** A coach's own table name resolves back to that coach. */
  lemma CoachNameResolves(parse: IntParse, id: string)
    requires NamesAreNotNumbers(parse)
    requires id in CoachIdToName
    ensures NormalizeCoachPair(parse, CoachIdToName[id]) == CoachRef(CoachIdToName[id], id)
  {
    var name := CoachIdToName[id];
    CoachIdInverse(id);
    CoachNameNotNumber(parse, id);
    CoachNameEdges(id);
    NameResolves(parse, name, Lower(name), id);
  }

  /** A coach name is not a number, for a parser that reads none of them. */
  lemma CoachNameNotNumber(parse: IntParse, id: string)
    requires NamesAreNotNumbers(parse)
    requires id in CoachIdToName
    ensures parse(CoachIdToName[id]).None?
  {
    assert id == "1" || id == "2" || id == "3" || id == "4";
  }

  /** Coach ids are one digit, and coach names are non-empty words that
      start and end with a capital letter. */
  lemma CoachNameEdges(id: string)
    requires id in CoachIdToName
    ensures |id| == 1 && '1' <= id[0] <= '4'
    ensures |CoachIdToName[id]| > 0
    ensures 'A' <= CoachIdToName[id][0] <= 'Z' && 'A' <= CoachIdToName[id][|CoachIdToName[id]| - 1] <= 'Z'
  {
    assert id == "1" || id == "2" || id == "3" || id == "4";
  }

  /** A name with no surrounding space, not a number, whose lower case is
      a key of `COACH_NAME_TO_ID`, resolves to itself and that id. */
  lemma NameResolves(parse: IntParse, name: string, key: string, id: string)
    requires parse(name).None?
    requires |name| > 0 && !IsSpace(name[0]) && !IsSpace(name[|name| - 1])
    requires Lower(name) == key && key in CoachNameToId && CoachNameToId[key] == id
    requires key != "nan" && key != "none"
    ensures NormalizeCoachPair(parse, name) == CoachRef(name, id)
  {
    StripClean(name);
  }

  /** The `KocID` fallback: a pair that already has an id is kept; one
      without takes the stripped `KocID` cell as its id when that is not
      empty, and the table's name for it when the id is known. */
  function FillCoachId(pair: CoachRef, kocIdCell: string): (r: CoachRef)
    ensures pair.id != "" ==> r == pair
    ensures pair.id == "" && Strip(kocIdCell) == "" ==> r == pair
    ensures pair.id == "" && Strip(kocIdCell) != "" ==>
      r.id == Strip(kocIdCell)
      && r.name == (if r.id in CoachIdToName then CoachIdToName[r.id] else pair.name)
  {
    if pair.id != "" then pair
    else
      var id := Strip(kocIdCell);
      if id != "" then CoachRef(if id in CoachIdToName then CoachIdToName[id] else pair.name, id) else pair
  }

  /** Resolution of one student's coach: the pair from the `Koc` cell,
      completed from the `KocID` cell. The result has an id iff either the
      `Koc` cell named a known coach or the `KocID` cell is not blank. */
  function ResolveCoach(parse: IntParse, kocCell: string, kocIdCell: string): (r: CoachRef)
    ensures r.id == "" <==> NormalizeCoachPair(parse, kocCell).id == "" && Strip(kocIdCell) == ""
    ensures NormalizeCoachPair(parse, kocCell).id != "" ==> r.id in CoachIdToName
  {
    FillCoachId(NormalizeCoachPair(parse, kocCell), kocIdCell)
  }
}

=== FILE: columns.dfy ===
/** Column-name normalisation and canonicalisation (`_normalize_colname`,
    `CANONICAL_COLMAP`, `_canonicalize_columns`). */
module Columns {
  import opened Text
  import opened Tables

  /** `_normalize_colname`: fold Turkish letters, lower-case, strip, then
      delete every `_` and every space. */
  function NormalizeColname(name: string): (r: string)
    ensures '_' !in r && ' ' !in r
    ensures 'ı' !in r
  {
    NoDotlessAfterFoldAndLower(name);
    RemoveChar(RemoveChar(Strip(Lower(SimplifyToken(name))), '_'), ' ')
  }

  /** `CANONICAL_COLMAP`: normalised header spelling to canonical column. */
  const CanonicalColmap: map<string, string> := map[
    "ogrenciid" := "OgrenciID", "id" := "OgrenciID", "ogrenci" := "OgrenciID",
    "adsoyad" := "AdSoyad", "adisoyadi" := "AdSoyad", "adisoyad" := "AdSoyad",
    "isim" := "AdSoyad", "adi" := "AdSoyad", "ad" := "AdSoyad",
    "grup" := "Grup", "sinif" := "Grup", "sınıf" := "Grup",
    "koc" := "Koc", "kocadi" := "Koc", "coach" := "Koc", "coachname" := "Koc",
    "kocid" := "KocID", "coachid" := "KocID",
    "uyelikdurumu" := "UyelikDurumu", "uyelikdurum" := "UyelikDurumu",
    "uyelik" := "UyelikDurumu", "uyedurumu" := "UyelikDurumu",
    "status" := "UyelikDurumu", "durum" := "UyelikDurumu",
    "üyelikdurumu" := "UyelikDurumu"
  ]

  /** The name one column ends up with after canonicalisation. */
  function CanonicalName(c: string): string {
    var key := NormalizeColname(c);
    if key in CanonicalColmap then CanonicalColmap[key] else c
  }

  /** `_canonicalize_columns`: an empty frame comes back as it is;
      otherwise every column whose normalised name is an alias is renamed
      to its canonical name, and nothing else changes. */
  function CanonicalizeColumns<T>(g: Grid<T>): (r: Grid<T>)
    ensures g.IsEmpty() ==> r == g
    ensures r.rows == g.rows && |r.columns| == |g.columns|
    ensures !g.IsEmpty() ==> forall i :: 0 <= i < |g.columns| ==>
      (NormalizeColname(g.columns[i]) in CanonicalColmap ==>
         r.columns[i] == CanonicalColmap[NormalizeColname(g.columns[i])])
      && (NormalizeColname(g.columns[i]) !in CanonicalColmap ==> r.columns[i] == g.columns[i])
  {
    if g.IsEmpty() then g
    else g.(columns := seq(|g.columns|, i requires 0 <= i < |g.columns| => CanonicalName(g.columns[i])))
  }

  /** The alias `sınıf` can never match: normalisation folds ı to i before
      lower-casing, and lower-casing never produces ı. */
  lemma DotlessAliasUnreachable(c: string)
    ensures NormalizeColname(c) != "sınıf"
  {
    assert 'ı' in "sınıf";
  }

  /** A header made of ASCII letters normalises to its ASCII lower case. */
  lemma NormalizeAsciiName(s: string)
    requires forall i :: 0 <= i < |s| ==> 'A' <= s[i] <= 'Z' || 'a' <= s[i] <= 'z'
    ensures NormalizeColname(s) == AsciiLower(s)
  {
    assert forall c :: c in s ==> !IsTurkishLetter(c);
    SimplifyTokenPlain(s);
    LowerAsciiLetters(s);
    var l := AsciiLower(s);
    assert Lower(SimplifyToken(s)) == l;
    assert forall i :: 0 <= i < |l| ==> 'a' <= l[i] <= 'z' || 'A' <= l[i] <= 'Z';
    assert l == [] || (!IsSpace(l[0]) && !IsSpace(l[|l| - 1]));
    StripClean(l);
    assert '_' !in l;
    RemoveAbsentChar(l, '_');
    assert ' ' !in l;
    RemoveAbsentChar(l, ' ');
  }

  /** The six canonical column names of the student sheet. */
  const CanonicalColumns: set<string> :=
    {"OgrenciID", "AdSoyad", "Grup", "Koc", "KocID", "UyelikDurumu"}

  /** Every alias leads to one of the canonical columns. */
  lemma ColmapTargets(k: string)
    requires k in CanonicalColmap
    ensures CanonicalColmap[k] in CanonicalColumns
  {
  }

  /** Each canonical column name normalises to an alias of itself. */
  lemma CanonicalNameFixed(v: string)
    requires v in CanonicalColumns
    ensures CanonicalName(v) == v
  {
    CanonicalColumnLetters(v);
    CanonicalColumnAlias(v);
    NormalizeAsciiName(v);
  }

  /** Each canonical column name is spelled in ASCII letters. */
  lemma CanonicalColumnLetters(v: string)
    requires v in CanonicalColumns
    ensures forall i :: 0 <= i < |v| ==> 'A' <= v[i] <= 'Z' || 'a' <= v[i] <= 'z'
  {
  }

  /** The ASCII lower case of each canonical column name is an alias of it. */
  lemma CanonicalColumnAlias(v: string)
    requires v in CanonicalColumns
    ensures AsciiLower(v) in CanonicalColmap && CanonicalColmap[AsciiLower(v)] == v
  {
    if v == "OgrenciID" {
      AliasOgrenciID();
    } else if v == "AdSoyad" {
      AliasAdSoyad();
    } else if v == "Grup" {
      AliasGrup();
    } else if v == "Koc" {
      AliasKoc();
    } else if v == "KocID" {
      AliasKocID();
    } else {
      AliasUyelikDurumu();
    }
  }

  // One lemma per canonical column: its ASCII lower case is its alias.

  lemma AliasOgrenciID()
    ensures AsciiLower("OgrenciID") in CanonicalColmap && CanonicalColmap[AsciiLower("OgrenciID")] == "OgrenciID"
  {
    assert AsciiLower("OgrenciID") == "ogrenciid";
  }

  lemma AliasAdSoyad()
    ensures AsciiLower("AdSoyad") in CanonicalColmap && CanonicalColmap[AsciiLower("AdSoyad")] == "AdSoyad"
  {
    assert AsciiLower("AdSoyad") == "adsoyad";
  }

  lemma AliasGrup()
    ensures AsciiLower("Grup") in CanonicalColmap && CanonicalColmap[AsciiLower("Grup")] == "Grup"
  {
    assert AsciiLower("Grup") == "grup";
  }

  lemma AliasKoc()
    ensures AsciiLower("Koc") in CanonicalColmap && CanonicalColmap[AsciiLower("Koc")] == "Koc"
  {
    assert AsciiLower("Koc") == "koc";
  }

  lemma AliasKocID()
    ensures AsciiLower("KocID") in CanonicalColmap && CanonicalColmap[AsciiLower("KocID")] == "KocID"
  {
    assert AsciiLower("KocID") == "kocid";
  }

  lemma AliasUyelikDurumu()
    ensures AsciiLower("UyelikDurumu") in CanonicalColmap && CanonicalColmap[AsciiLower("UyelikDurumu")] == "UyelikDurumu"
  {
    assert AsciiLower("UyelikDurumu") == "uyelikdurumu";
  }

  /** A canonicalised name canonicalises to itself. */
  lemma CanonicalNameStable(c: string)
    ensures CanonicalName(CanonicalName(c)) == CanonicalName(c)
  {
    var key := NormalizeColname(c);
    if key in CanonicalColmap {
      ColmapTargets(key);
      CanonicalNameFixed(CanonicalColmap[key]);
    }
  }

  /** Canonicalising an already canonicalised frame changes nothing. */
  lemma CanonicalizeIdempotent<T>(g: Grid<T>)
    ensures CanonicalizeColumns(CanonicalizeColumns(g)) == CanonicalizeColumns(g)
  {
    var r := CanonicalizeColumns(g);
    if !g.IsEmpty() {
      var r2 := CanonicalizeColumns(r);
      forall i | 0 <= i < |r.columns|
        ensures r2.columns[i] == r.columns[i]
      {
        assert r.columns[i] == CanonicalName(g.columns[i]);
        CanonicalNameStable(g.columns[i]);
      }
    }
  }
}

=== FILE: membership.dfy ===
/** Membership status of a student: the free-text `UyelikDurumu` cell
    classified into code 0 (passive), 1 (active) or 2 (frozen), its label,
    and the active filter of `load_students`. */
module Membership {
  import opened Wrappers
  import opened Text

  /** `MEMBERSHIP_STATUS_LABELS`. */
  const Labels: map<int, string> := map[0 := "Pasif", 1 := "Aktif", 2 := "Dondurulmuş"]

  /** `MEMBERSHIP_STATUS_ACTIVE_CODES`: the codes whose students are listed. */
  const ActiveCodes: set<int> := {1, 2}

  /** Status words recognised before any number parsing is tried. */
  const ActiveWords: set<string> := {"1", "aktif", "active"}
  const FrozenWords: set<string> :=
    {"2", "dondurulmus", "dondurulmuş", "frozen", "askida", "askiya", "askıya"}
  const PassiveWords: set<string> := {"0", "pasif", "inactive", "kapali", "kapalı", "off"}

  /** The status text as it is compared: folded, lower-cased, stripped. */
  function StatusKey(v: string): string {
    Strip(Lower(SimplifyToken(v)))
  }

  /** The code of one `UyelikDurumu` cell: a recognised word gives its fixed
      code; otherwise a number 0, 1 or 2 gives itself, and any other number
      or unparsable text gives 1 (active). */
  function MembershipCode(parse: IntParse, v: string): (code: int)
    ensures code in Labels
    ensures StatusKey(v) in ActiveWords ==> code == 1
    ensures StatusKey(v) in FrozenWords ==> code == 2
    ensures StatusKey(v) in PassiveWords ==> code == 0
    ensures StatusKey(v) !in ActiveWords + FrozenWords + PassiveWords ==>
      (parse(StatusKey(v)).Some? && parse(StatusKey(v)).value in Labels ==> code == parse(StatusKey(v)).value)
      && (parse(StatusKey(v)).None? || parse(StatusKey(v)).value !in Labels ==> code == 1)
  {
    KeyCode(parse, StatusKey(v))
  }

  /** The code of a status key, already folded, lower-cased and stripped. */
  function KeyCode(parse: IntParse, s: string): (code: int)
    ensures code in Labels
    ensures s in ActiveWords ==> code == 1
    ensures s in FrozenWords ==> code == 2
    ensures s in PassiveWords ==> code == 0
    ensures s !in ActiveWords + FrozenWords + PassiveWords ==>
      (parse(s).Some? && parse(s).value in Labels ==> code == parse(s).value)
      && (parse(s).None? || parse(s).value !in Labels ==> code == 1)
  {
    WordSetsDisjoint();
    if s in ActiveWords then 1
    else if s in FrozenWords then 2
    else if s in PassiveWords then 0
    else match parse(s)
      case Some(n) => if n == 0 || n == 1 || n == 2 then n else 1
      case None => 1
  }

  /** No status word is recognised with two different codes. */
  lemma WordSetsDisjoint()
    ensures ActiveWords !! FrozenWords && ActiveWords !! PassiveWords && FrozenWords !! PassiveWords
  {
  }

  /** `MEMBERSHIP_STATUS_LABELS.get(code, "")`. */
  function MembershipLabel(code: int): (text: string)
    ensures code in Labels ==> text == Labels[code] && text != ""
    ensures code !in Labels ==> text == ""
  {
    if code in Labels then Labels[code] else ""
  }

  /** Whether a student with this code is listed. */
  predicate IsActive(code: int) {
    code in ActiveCodes
  }

  /** Classifying a label gives back the code it labels, whatever the
      number parser does: a loaded status column can be loaded again. */
  lemma LabelRoundTrip(parse: IntParse, code: int)
    requires code in Labels
    ensures MembershipCode(parse, MembershipLabel(code)) == code
  {
    var w := MembershipLabel(code);
    if code == 0 {
      PlainStatusKey(w, "pasif");
    } else if code == 1 {
      PlainStatusKey(w, "aktif");
    } else {
      FrozenLabelKey(w);
    }
  }

  /** The frozen label folds its ş and reads as `dondurulmus`. */
  lemma FrozenLabelKey(w: string)
    requires w == "Dondurulmuş"
    ensures StatusKey(w) == "dondurulmus"
  {
    SimplifyTokenPointwise(w);
    var folded := SimplifyToken(w);
    assert folded == "Dondurulmus";
    SimplifyTokenPlain(folded);
    PlainStatusKey(folded, "dondurulmus");
  }

  /** The status key of an ASCII word is its ASCII lower case. */
  lemma PlainStatusKey(w: string, key: string)
    requires |w| > 0 && forall i :: 0 <= i < |w| ==> 'A' <= w[i] <= 'Z' || 'a' <= w[i] <= 'z'
    requires |key| == |w|
    requires forall i :: 0 <= i < |w| ==> key[i] == if 'A' <= w[i] <= 'Z' then (w[i] as int + 32) as char else w[i]
    ensures StatusKey(w) == key
  {
    assert forall c :: c in w ==> !IsTurkishLetter(c);
    SimplifyTokenPlain(w);
    LowerAsciiLetters(w);
    assert AsciiLower(w) == key;
    StripClean(key);
  }

  /** A status cell holding only whitespace (or nothing) counts as active
      when the number parser rejects the empty string, as Python's
      `float("")` does. */
  lemma BlankStatusIsActive(parse: IntParse, v: string)
    requires forall i :: 0 <= i < |v| ==> IsSpace(v[i])
    requires parse("").None?
    ensures MembershipCode(parse, v) == 1
  {
    SimplifyTokenPointwise(v);
    var f := SimplifyToken(v);
    assert forall i :: 0 <= i < |f| ==> IsSpace(f[i]);
    LowerOfSpaces(f);
    assert StatusKey(v) == "";
  }

  /** Lower-casing leaves a string of whitespace made of whitespace. */
  lemma {:induction false} LowerOfSpaces(s: string)
    requires forall i :: 0 <= i < |s| ==> IsSpace(s[i])
    ensures forall i :: 0 <= i < |Lower(s)| ==> IsSpace(Lower(s)[i])
    decreases |s|
  {
    if s != [] {
      LowerOfSpaces(s[1..]);
      assert Lower(s) == LowerChar(s[0]) + Lower(s[1..]);
      assert LowerChar(s[0]) == [s[0]];
    }
  }

  /** The aliases `askıya` and `kapalı` are never matched: the key is
      folded before it is lower-cased, so it holds no dotless ı. */
  lemma DotlessStatusWordsUnreachable(v: string)
    ensures StatusKey(v) != "askıya" && StatusKey(v) != "kapalı"
  {
    NoDotlessAfterFoldAndLower(v);
    assert 'ı' in "askıya" && 'ı' in "kapalı";
  }
}

=== FILE: passwords.dfy ===
/** The coach panel's login rules: the user dictionary (`load_user_dict`)
    and `verify_password`, including the passwordless mode. */
module Passwords {
  import opened Students

  /** One user's entry from the secrets file: field name to its text. */
  type UserRecord = map<string, string>

  /** `Dict[str, Dict]`: user name to entry. */
  type UserTable = map<string, UserRecord>

  /** `str(users[username].get("password", ""))`. */
  function StoredPassword(users: UserTable, username: string): string
    requires username in users
  {
    if "password" in users[username] then users[username]["password"] else ""
  }

  /** `verify_password`: an unknown user is refused; a user with no stored
      password (or an empty one) is let in whatever was typed; otherwise
      the typed password must equal the stored one. */
  function VerifyPassword(users: UserTable, username: string, password: string): (ok: bool)
    ensures username !in users ==> !ok
    ensures username in users && StoredPassword(users, username) == "" ==> ok
    ensures username in users && StoredPassword(users, username) != "" ==>
      (ok <==> password == StoredPassword(users, username))
  {
    if username !in users then false
    else
      var expected := StoredPassword(users, username);
      if expected == "" then true else password == expected
  }

  /** The entry every coach gets in passwordless mode. */
  const PasswordlessEntry: UserRecord := map["password" := ""]

  /** `load_user_dict`: the users from the secrets when there are any;
      otherwise one passwordless user per distinct non-empty coach name of
      the loaded students. */
  function LoadUserDict(secrets: UserTable, students: seq<Student>): (users: UserTable)
    ensures secrets != map[] ==> users == secrets
    ensures secrets == map[] ==>
      (forall n :: n in users <==> n != "" && exists s :: s in students && s.coach == n)
    ensures secrets == map[] ==> forall n :: n in users ==> users[n] == PasswordlessEntry
  {
    if secrets != map[] then secrets
    else map s | s in students && s.coach != "" :: s.coach := PasswordlessEntry
  }

  /** In passwordless mode a login succeeds exactly for the names of the
      coaches of loaded students, whatever password is typed. */
  lemma PasswordlessLogin(students: seq<Student>, username: string, password: string)
    ensures VerifyPassword(LoadUserDict(map[], students), username, password)
      <==> username != "" && exists s :: s in students && s.coach == username
  {
    var users := LoadUserDict(map[], students);
    if username in users {
      assert StoredPassword(users, username) == "";
    }
  }
}

=== FILE: session.dfy ===
/** The shared login and session helpers of the multi-page app: the fixed
    user table, credential lookup, role routing, and the session state,
    which is a map from keys to values that each call returns updated. */
module Session {
  import opened Wrappers
  import opened Tables

  /** A login account. */
  datatype User = User(
    username: string,
    password: string,
    role: string,
    displayName: string,
    coachCode: Option<string>)

  /** `USERS`. */
  const Users: map<string, User> := map[
    "crm_admin" := User("crm_admin", "crm123", "crm", "CRM Yöneticisi", None),
    "coach_ahmet" := User("coach_ahmet", "coach123", "coach", "Koç Ahmet", Some("Ahmet"))
  ]

  /** `ROLE_PAGES`. */
  const RolePages: map<string, string> :=
    map["crm" := "pages/01_CRM.py", "coach" := "pages/02_Koc.py"]

  /** `authenticate_user`: the stored user when the name is known and the
      password matches it exactly, otherwise nothing. */
  function AuthenticateUser(username: string, password: string): (r: Option<User>)
    ensures r.Some? <==> username in Users && password == Users[username].password
    ensures r.Some? ==> r.value == Users[username]
  {
    if username in Users && password == Users[username].password then Some(Users[username]) else None
  }

  /** Every stored user is filed under its own user name. */
  lemma UsersKeyedByName(username: string, password: string)
    ensures AuthenticateUser(username, password).Some? ==>
      AuthenticateUser(username, password).value.username == username
  {
    if username in Users {
      assert username == "crm_admin" || username == "coach_ahmet";
    }
  }

  /** `get_role_target`: the page of a known role, nothing for any other. */
  function GetRoleTarget(role: string): (r: Option<string>)
    ensures r.Some? <==> role in RolePages
    ensures r.Some? ==> r.value == RolePages[role]
  {
    if role in RolePages then Some(RolePages[role]) else None
  }

  /** The CRM role goes to the CRM page, the coach role to the coach page,
      and every other role has no page. */
  lemma RoleTargets(role: string)
    ensures role == "crm" ==> GetRoleTarget(role) == Some("pages/01_CRM.py")
    ensures role == "coach" ==> GetRoleTarget(role) == Some("pages/02_Koc.py")
    ensures role != "crm" && role != "coach" ==> GetRoleTarget(role) == None
  {
  }

  /** Every stored user can be routed: its role has a page. */
  lemma StoredRolesRouted(username: string)
    requires username in Users
    ensures GetRoleTarget(Users[username].role).Some?
  {
    assert username == "crm_admin" || username == "coach_ahmet";
  }

  // ---------------------------------------------------------------------
  // Session state
  // ---------------------------------------------------------------------

  /** The plain values the session holds. */
  datatype Scalar = Null | Bool(b: bool) | Int(i: int) | Str(s: string) | Date(year: int, month: int, day: int)

  /** A session entry: a plain value or a table. */
  datatype Entry = Value(v: Scalar) | Frame(grid: Grid<Scalar>)

  /** `st.session_state`. */
  type State = map<string, Entry>

  /** `st.session_state.get(key)`: `None` when the key is absent. */
  function Get(s: State, key: string): Entry {
    if key in s then s[key] else Value(Null)
  }

  /** Python truth value of an entry; asking it of a table raises. */
  function Truthy(e: Entry): (r: Result<bool>)
    ensures r.Err? <==> e.Frame?
    ensures e == Value(Null) || e == Value(Bool(false)) || e == Value(Int(0)) || e == Value(Str("")) ==> r == Ok(false)
    ensures r.Ok? ==>
      (r.value <==> !(e == Value(Null) || e == Value(Bool(false)) || e == Value(Int(0)) || e == Value(Str(""))))
  {
    match e
    case Frame(_) => Err("The truth value of a DataFrame is ambiguous")
    case Value(v) =>
      match v
      case Null => Ok(false)
      case Bool(b) => Ok(b)
      case Int(i) => Ok(i != 0)
      case Str(t) => Ok(t != "")
      case Date(_, _, _) => Ok(true)
  }

  /** The keys a login writes and a logout removes. */
  const SessionKeys: set<string> := {"authenticated", "username", "role", "display_name", "coach_code"}

  /** `if user.coach_code:` — present and not empty. */
  predicate HasCoachCode(u: User) {
    u.coachCode.Some? && u.coachCode.value != ""
  }

  /** `start_user_session`: marks the session authenticated and records the
      user's name, role and display name; the coach code is written only
      when the user has a non-empty one. No other entry changes. */
  function StartUserSession(s: State, u: User): (r: State)
    ensures "authenticated" in r && r["authenticated"] == Value(Bool(true))
    ensures "username" in r && r["username"] == Value(Str(u.username))
    ensures "role" in r && r["role"] == Value(Str(u.role))
    ensures "display_name" in r && r["display_name"] == Value(Str(u.displayName))
    ensures HasCoachCode(u) ==> "coach_code" in r && r["coach_code"] == Value(Str(u.coachCode.value))
    ensures !HasCoachCode(u) ==>
      ("coach_code" in r <==> "coach_code" in s) && ("coach_code" in s ==> r["coach_code"] == s["coach_code"])
    ensures forall k :: k !in SessionKeys ==> (k in r <==> k in s) && (k in s ==> r[k] == s[k])
  {
    var r := s["authenticated" := Value(Bool(true))]
              ["username" := Value(Str(u.username))]
              ["role" := Value(Str(u.role))]
              ["display_name" := Value(Str(u.displayName))];
    if HasCoachCode(u) then r["coach_code" := Value(Str(u.coachCode.value))] else r
  }

  /** `end_user_session`: removes the five login keys and nothing else. */
  function EndUserSession(s: State): (r: State)
    ensures forall k :: k in r <==> k in s && k !in SessionKeys
    ensures forall k :: k in r ==> r[k] == s[k]
  {
    s - SessionKeys
  }

  /** Logging out twice is logging out once. */
  lemma EndUserSessionIdempotent(s: State)
    ensures EndUserSession(EndUserSession(s)) == EndUserSession(s)
  {
  }

  /** What `get_current_user` reports. */
  datatype CurrentUser = CurrentUser(username: Entry, role: Entry, displayName: Entry, coachCode: Entry)

  /** `get_current_user`: nothing unless the `authenticated` entry is
      truthy; otherwise the recorded name, role, display name (falling back
      to the user name when the key is missing) and coach code. */
  function GetCurrentUser(s: State): (r: Result<Option<CurrentUser>>)
    ensures r.Err? <==> Get(s, "authenticated").Frame?
    ensures Truthy(Get(s, "authenticated")) == Ok(false) ==> r == Ok(None)
    ensures Truthy(Get(s, "authenticated")) == Ok(true) ==> r.Ok? && r.value.Some?
    ensures r.Ok? && r.value.Some? ==>
      var u := r.value.value;
      u.username == Get(s, "username") && u.role == Get(s, "role") && u.coachCode == Get(s, "coach_code")
      && u.displayName == (if "display_name" in s then s["display_name"] else Get(s, "username"))
  {
    match Truthy(Get(s, "authenticated"))
    case Err(e) => Err(e)
    case Ok(authenticated) =>
      if !authenticated then Ok(None)
      else Ok(Some(CurrentUser(
        Get(s, "username"),
        Get(s, "role"),
        if "display_name" in s then s["display_name"] else Get(s, "username"),
        Get(s, "coach_code"))))
  }

  /** After a login, the current user is the one who logged in; the coach
      code is theirs if they have one, otherwise whatever the session held. */
  lemma StartThenCurrent(s: State, u: User)
    ensures GetCurrentUser(StartUserSession(s, u)) == Ok(Some(CurrentUser(
      Value(Str(u.username)), Value(Str(u.role)), Value(Str(u.displayName)),
      if HasCoachCode(u) then Value(Str(u.coachCode.value)) else Get(s, "coach_code"))))
  {
  }

  /** After a logout nobody is logged in, and a login that follows leaves
      no coach code behind from the earlier session. */
  lemma EndThenStart(s: State, u: User)
    ensures GetCurrentUser(EndUserSession(s)) == Ok(None)
    ensures GetCurrentUser(StartUserSession(EndUserSession(s), u)).Ok?
    ensures GetCurrentUser(StartUserSession(EndUserSession(s), u)).value.Some?
    ensures GetCurrentUser(StartUserSession(EndUserSession(s), u)).value.value.coachCode
      == (if HasCoachCode(u) then Value(Str(u.coachCode.value)) else Value(Null))
  {
    StartThenCurrent(EndUserSession(s), u);
  }

  /** The decision of `require_role`. */
  datatype Access = Granted | Redirected(page: string)

  /** `user.get("role") == role` as Python evaluates it inside `if`:
      comparing a table gives a table, whose truth value raises. */
  function RoleMatches(e: Entry, role: string): (r: Result<bool>)
    ensures r == Ok(true) <==> e == Value(Str(role))
    ensures r.Err? <==> e.Frame?
  {
    match e
    case Frame(_) => Err("The truth value of a DataFrame is ambiguous")
    case Value(v) => Ok(v == Str(role))
  }

  /** `require_role`: access is granted exactly when there is a current
      user whose role is the requested one; otherwise the page sends the
      visitor to the login page. */
  function RequireRole(s: State, role: string): (r: Result<Access>)
    ensures r == Ok(Granted) <==>
      GetCurrentUser(s).Ok? && GetCurrentUser(s).value.Some? && GetCurrentUser(s).value.value.role == Value(Str(role))
    ensures r.Ok? && r.value.Redirected? ==> r.value.page == "crm.py"
    ensures GetCurrentUser(s) == Ok(None) ==> r == Ok(Redirected("crm.py"))
    ensures r.Err? <==>
      (GetCurrentUser(s).Err? || (GetCurrentUser(s).value.Some? && GetCurrentUser(s).value.value.role.Frame?))
  {
    match GetCurrentUser(s)
    case Err(e) => Err(e)
    case Ok(None) => Ok(Redirected("crm.py"))
    case Ok(Some(u)) =>
      match RoleMatches(u.role, role)
      case Err(e) => Err(e)
      case Ok(matches) => if matches then Ok(Granted) else Ok(Redirected("crm.py"))
  }

  /** A successful login grants the pages of the user's own role and of no
      other role, and that role has a page to go to. */
  lemma LoginGrantsOwnRole(s: State, username: string, password: string, role: string)
    requires AuthenticateUser(username, password).Some?
    ensures var u := AuthenticateUser(username, password).value;
      (RequireRole(StartUserSession(s, u), role) == Ok(Granted) <==> role == u.role)
      && GetRoleTarget(u.role).Some?
  {
    var u := AuthenticateUser(username, password).value;
    StartThenCurrent(s, u);
    StoredRolesRouted(username);
  }

  // ---------------------------------------------------------------------
  // Demo tables
  // ---------------------------------------------------------------------

  /** The one-row demo student table `ensure_dataframes_initialized` seeds. */
  const DemoStudents: Grid<Scalar> := Grid(
    ["ID", "AdSoyad", "Telefon", "Grup", "Seviye", "Koc", "Baslangic", "UcretAylik",
     "SonOdeme", "Aktif", "AktifDurumu", "UyelikTercihi"],
    [[Int(1), Str("Demo Öğrenci"), Str("0533"), Str("U10"), Str("Başlangıç"), Str("Ahmet"),
      Date(2025, 9, 1), Int(1500), Date(2025, 10, 1), Bool(true), Str("Aktif"), Int(1)]])

  /** Columns of the empty attendance table. */
  const AttendanceColumns: seq<string> := ["Tarih", "Grup", "OgrenciID", "AdSoyad", "Koc", "Katildi", "Not"]

  /** Columns of the empty payments table. */
  const PaymentColumns: seq<string> := ["Tarih", "OgrenciID", "AdSoyad", "Koc", "Tutar", "Aciklama"]

  /** The three table keys. */
  const TableKeys: set<string> := {"ogr", "yok", "tah"}

  /** `ensure_dataframes_initialized`: seeds each of `ogr`, `yok` and `tah`
      that is missing and never overwrites one that is present. */
  function EnsureDataframesInitialized(s: State): (r: State)
    ensures r.Keys == s.Keys + TableKeys
    ensures forall k :: k in s ==> r[k] == s[k]
    ensures "ogr" !in s ==> r["ogr"] == Frame(DemoStudents)
    ensures "yok" !in s ==> r["yok"] == Frame(Grid(AttendanceColumns, []))
    ensures "tah" !in s ==> r["tah"] == Frame(Grid(PaymentColumns, []))
  {
    var s1 := if "ogr" !in s then s["ogr" := Frame(DemoStudents)] else s;
    var s2 := if "yok" !in s1 then s1["yok" := Frame(Grid(AttendanceColumns, []))] else s1;
    if "tah" !in s2 then s2["tah" := Frame(Grid(PaymentColumns, []))] else s2
  }

  /** Seeding twice is seeding once. */
  lemma EnsureDataframesIdempotent(s: State)
    ensures EnsureDataframesInitialized(EnsureDataframesInitialized(s)) == EnsureDataframesInitialized(s)
  {
  }

  /** Seeding the tables does not touch the login, and logging out does not
      touch the tables. */
  lemma TablesAndLoginIndependent(s: State)
    ensures GetCurrentUser(EnsureDataframesInitialized(s)) == GetCurrentUser(s)
    ensures forall k :: k in TableKeys && k in s ==> k in EndUserSession(s) && EndUserSession(s)[k] == s[k]
  {
    LoginKeysDecide(EnsureDataframesInitialized(s), s);
  }

  /** The current user depends only on the login keys. */
  lemma LoginKeysDecide(s: State, t: State)
    requires forall k :: k in SessionKeys ==> Get(s, k) == Get(t, k) && (k in s <==> k in t)
    ensures GetCurrentUser(s) == GetCurrentUser(t)
  {
    assert "authenticated" in SessionKeys && "username" in SessionKeys && "role" in SessionKeys;
    assert "display_name" in SessionKeys && "coach_code" in SessionKeys;
  }
}

=== FILE: students.dfy ===
/** `load_students` after the sheet has been fetched: canonicalise the
    header, resolve each student's coach, classify the membership status,
    keep the active students that have an id or a name. */
module Students {
  import opened Text
  import opened Tables
  import opened Columns
  import opened Coaches
  import opened Membership

  /** One row of the loaded student table. */
  datatype Student = Student(
    id: string,        // OgrenciID
    name: string,      // AdSoyad
    group: string,     // Grup
    coach: string,     // Koc
    coachId: string,   // KocID
    status: string,    // UyelikDurumu, rewritten as its label
    code: int          // UyelikDurumuKodu
  )

  /** One sheet row under canonical column names, before any filtering:
      coach resolved from `Koc` then `KocID`, status classified and
      labelled, the five text fields stripped. */
  function StudentOf(parse: IntParse, columns: seq<string>, row: seq<string>): (s: Student)
    ensures s.id == Strip(Cell(columns, row, "OgrenciID"))
    ensures s.name == Strip(Cell(columns, row, "AdSoyad"))
    ensures s.group == Strip(Cell(columns, row, "Grup"))
    ensures var c := ResolveCoach(parse, Cell(columns, row, "Koc"), Cell(columns, row, "KocID"));
      s.coach == c.name && s.coachId == c.id
    ensures s.code in Labels && s.status == Labels[s.code]
    ensures s.code == MembershipCode(parse, Cell(columns, row, "UyelikDurumu"))
    ensures Strip(s.id) == s.id && Strip(s.name) == s.name && Strip(s.group) == s.group
    ensures Strip(s.coach) == s.coach && Strip(s.coachId) == s.coachId
    ensures var pair := NormalizeCoachPair(parse, Cell(columns, row, "Koc"));
      pair.id != "" ==>
        (s.coachId == pair.id && s.coachId in CoachIdToName
         && Lower(s.coach) == Lower(CoachIdToName[s.coachId]))
    ensures s.coachId == "" <==>
      NormalizeCoachPair(parse, Cell(columns, row, "Koc")).id == "" && Strip(Cell(columns, row, "KocID")) == ""
  {
    var koc := Cell(columns, row, "Koc");
    var kocId := Cell(columns, row, "KocID");
    var coach := ResolveCoach(parse, koc, kocId);
    var code := MembershipCode(parse, Cell(columns, row, "UyelikDurumu"));
    var id := Cell(columns, row, "OgrenciID");
    var name := Cell(columns, row, "AdSoyad");
    var group := Cell(columns, row, "Grup");
    ResolvedCoachClean(parse, koc, kocId);
    StripIdempotent(id);
    StripIdempotent(name);
    StripIdempotent(group);
    Student(Strip(id), Strip(name), Strip(group), Strip(coach.name), Strip(coach.id), MembershipLabel(code), code)
  }

  /** The coach `ResolveCoach` produces carries no surrounding whitespace,
      and an id taken from the `Koc` cell agrees with the name. */
  lemma ResolvedCoachClean(parse: IntParse, koc: string, kocId: string)
    ensures var c := ResolveCoach(parse, koc, kocId);
      Strip(c.name) == c.name && Strip(c.id) == c.id
    ensures var pair := NormalizeCoachPair(parse, koc);
      pair.id != "" ==>
        (ResolveCoach(parse, koc, kocId) == pair && Lower(pair.name) == Lower(CoachIdToName[pair.id]))
  {
    var pair := NormalizeCoachPair(parse, koc);
    PairClean(parse, koc);
    CoachPairConsistent(parse, koc);
    if pair.id == "" {
      FilledClean(pair, kocId);
    }
  }

  /** The pair read from a `Koc` cell has no surrounding whitespace. */
  lemma PairClean(parse: IntParse, koc: string)
    ensures var p := NormalizeCoachPair(parse, koc);
      Strip(p.name) == p.name && Strip(p.id) == p.id
  {
    var t := Strip(koc);
    var p := NormalizeCoachPair(parse, koc);
    if IsBlankCoach(t) {
      StripClean(p.name);
    } else if NumericCoachId(parse, t).Some? {
      KnownIdClean(p.id);
    } else {
      StripIdempotent(koc);
      if p.id != "" {
        KnownIdClean(p.id);
      } else {
        StripClean(p.id);
      }
    }
  }

  /** Completing an id-less pair from the `KocID` cell gives a clean id,
      and a clean name when the pair's name was clean. */
  lemma FilledClean(pair: CoachRef, kocId: string)
    requires pair.id == ""
    ensures var c := FillCoachId(pair, kocId);
      Strip(c.id) == c.id && (Strip(pair.name) == pair.name ==> Strip(c.name) == c.name)
  {
    StripIdempotent(kocId);
    var id := Strip(kocId);
    if id != "" && id in CoachIdToName {
      KnownIdClean(id);
    } else if id == "" {
      StripClean(id);
    }
  }

  /** A coach id and its table name have no surrounding whitespace. */
  lemma KnownIdClean(id: string)
    requires id in CoachIdToName
    ensures Strip(id) == id && Strip(CoachIdToName[id]) == CoachIdToName[id]
  {
    CoachNameEdges(id);
    StripClean(id);
    StripClean(CoachIdToName[id]);
  }

  /** Whether a student survives both filters of `load_students`: an active
      code, and an id or a name. */
  predicate Listed(s: Student) {
    IsActive(s.code) && (s.id != "" || s.name != "")
  }

  /** The two row filters, keeping row order. */
  function KeepListed(ss: seq<Student>): (r: seq<Student>)
    ensures forall s :: s in r <==> s in ss && Listed(s)
    ensures |r| <= |ss|
    decreases |ss|
  {
    if ss == [] then []
    else (if Listed(ss[0]) then [ss[0]] else []) + KeepListed(ss[1..])
  }

  /** The filters keep every listed student as often as it occurs and
      drop every other one. */
  lemma {:induction false} KeepListedCounts(ss: seq<Student>)
    ensures forall s :: multiset(KeepListed(ss))[s] == if Listed(s) then multiset(ss)[s] else 0
    decreases |ss|
  {
    if ss != [] {
      KeepListedCounts(ss[1..]);
      assert ss == [ss[0]] + ss[1..];
    }
  }

  /** The filters work row by row: filtering two runs of rows one after
      the other gives the two filtered runs in the same order. */
  lemma {:induction false} KeepListedConcat(a: seq<Student>, b: seq<Student>)
    ensures KeepListed(a + b) == KeepListed(a) + KeepListed(b)
    decreases |a|
  {
    if a == [] {
      assert a + b == b;
    } else {
      var ab := a + b;
      KeepListedConcat(a[1..], b);
      assert ab[0] == a[0] && ab[1..] == a[1..] + b;
      var head := if Listed(a[0]) then [a[0]] else [];
      var x, y := KeepListed(a[1..]), KeepListed(b);
      assert KeepListed(ab) == head + KeepListed(a[1..] + b);
      assert head + (x + y) == (head + x) + y;
    }
  }

  /** Every row of the sheet turned into a student, in row order. */
  function AllStudents(parse: IntParse, columns: seq<string>, rows: seq<seq<string>>): (r: seq<Student>)
    ensures |r| == |rows|
    ensures forall i :: 0 <= i < |rows| ==> r[i] == StudentOf(parse, columns, rows[i])
  {
    seq(|rows|, i requires 0 <= i < |rows| => StudentOf(parse, columns, rows[i]))
  }

  /** Building students from two runs of rows builds them run by run. */
  lemma AllStudentsConcat(parse: IntParse, columns: seq<string>, a: seq<seq<string>>, b: seq<seq<string>>)
    ensures AllStudents(parse, columns, a + b) == AllStudents(parse, columns, a) + AllStudents(parse, columns, b)
  {
    var ab := AllStudents(parse, columns, a + b);
    var x, y := AllStudents(parse, columns, a), AllStudents(parse, columns, b);
    forall i | 0 <= i < |ab|
      ensures ab[i] == (x + y)[i]
    {
      if i < |a| {
        assert (a + b)[i] == a[i];
      } else {
        assert (a + b)[i] == b[i - |a|];
      }
    }
  }

  /** Every student the filters keep is listed and well formed. */
  lemma KeptStudentsClean(parse: IntParse, columns: seq<string>, rows: seq<seq<string>>)
    ensures forall s :: s in KeepListed(AllStudents(parse, columns, rows)) ==>
      IsActive(s.code) && s.status == Labels[s.code] && (s.id != "" || s.name != "")
      && Strip(s.id) == s.id && Strip(s.name) == s.name
  {
    var all := AllStudents(parse, columns, rows);
    AllStudentsClean(parse, columns, rows);
    forall s | s in KeepListed(all)
      ensures Listed(s) && WellFormed(s)
    {
    }
  }

  /** A student with its status labelled and its id and name stripped. */
  predicate WellFormed(s: Student) {
    s.code in Labels && s.status == Labels[s.code] && Strip(s.id) == s.id && Strip(s.name) == s.name
  }

  /** Every student built from a row is well formed. */
  lemma AllStudentsClean(parse: IntParse, columns: seq<string>, rows: seq<seq<string>>)
    ensures forall s :: s in AllStudents(parse, columns, rows) ==> WellFormed(s)
  {
    var all := AllStudents(parse, columns, rows);
    forall i | 0 <= i < |all|
      ensures WellFormed(all[i])
    {
    }
  }

  /** The filters keep exactly the listed students built from the rows. */
  lemma KeptStudentsExactly(parse: IntParse, columns: seq<string>, rows: seq<seq<string>>)
    ensures forall s :: s in KeepListed(AllStudents(parse, columns, rows)) <==>
      Listed(s) && exists i :: 0 <= i < |rows| && s == StudentOf(parse, columns, rows[i])
  {
    InAllStudents(parse, columns, rows);
  }

  /** The students built from the rows are exactly those built from some row. */
  lemma InAllStudents(parse: IntParse, columns: seq<string>, rows: seq<seq<string>>)
    ensures forall s :: s in AllStudents(parse, columns, rows) <==>
      exists i :: 0 <= i < |rows| && s == StudentOf(parse, columns, rows[i])
  {
    AllStudentsFromRows(parse, columns, rows);
    RowsInAllStudents(parse, columns, rows);
  }

  /** Each student built from the rows is built from some row. */
  lemma AllStudentsFromRows(parse: IntParse, columns: seq<string>, rows: seq<seq<string>>)
    ensures forall s :: s in AllStudents(parse, columns, rows) ==>
      exists i :: 0 <= i < |rows| && s == StudentOf(parse, columns, rows[i])
  {
    var all := AllStudents(parse, columns, rows);
    forall i | 0 <= i < |all|
      ensures all[i] == StudentOf(parse, columns, rows[i])
    {
    }
  }

  /** The student each row builds is among those built from the rows. */
  lemma RowsInAllStudents(parse: IntParse, columns: seq<string>, rows: seq<seq<string>>)
    ensures forall i :: 0 <= i < |rows| ==> StudentOf(parse, columns, rows[i]) in AllStudents(parse, columns, rows)
  {
    var all := AllStudents(parse, columns, rows);
    forall i | 0 <= i < |rows|
      ensures StudentOf(parse, columns, rows[i]) in all
    {
      assert all[i] == StudentOf(parse, columns, rows[i]);
    }
  }

  /** `load_students` applied to the fetched records: an empty sheet
      gives no students; otherwise the result holds exactly the listed
      students built from the rows, each with an active code, its label, an
      id or a name, and no surrounding whitespace. */
  function LoadStudents(parse: IntParse, g: Grid<string>): (r: seq<Student>)
    ensures g.IsEmpty() ==> r == []
    ensures |r| <= |g.rows|
    ensures forall s :: s in r ==>
      IsActive(s.code) && s.status == Labels[s.code] && (s.id != "" || s.name != "")
      && Strip(s.id) == s.id && Strip(s.name) == s.name
    ensures forall s :: s in r <==>
      !g.IsEmpty() && Listed(s)
      && exists i :: 0 <= i < |g.rows| && s == StudentOf(parse, CanonicalizeColumns(g).columns, g.rows[i])
  {
    if g.IsEmpty() then []
    else
      var c := CanonicalizeColumns(g);
      KeptStudentsClean(parse, c.columns, c.rows);
      KeptStudentsExactly(parse, c.columns, c.rows);
      KeepListed(AllStudents(parse, c.columns, c.rows))
  }

  /** `load_students` keeps each listed student built from the rows as
      often as some row builds it, and no other student. */
  lemma LoadStudentsCounts(parse: IntParse, g: Grid<string>)
    requires !g.IsEmpty()
    ensures forall s :: multiset(LoadStudents(parse, g))[s] ==
              if Listed(s) then multiset(AllStudents(parse, CanonicalizeColumns(g).columns, g.rows))[s] else 0
  {
    KeepListedCounts(AllStudents(parse, CanonicalizeColumns(g).columns, g.rows));
  }

  /** `load_students` keeps row order: the students of a sheet whose rows
      are `a` then `b` are those of `a` followed by those of `b`. */
  lemma LoadStudentsConcat(parse: IntParse, columns: seq<string>, a: seq<seq<string>>, b: seq<seq<string>>)
    ensures LoadStudents(parse, Grid(columns, a + b)) ==
      LoadStudents(parse, Grid(columns, a)) + LoadStudents(parse, Grid(columns, b))
  {
    if a == [] {
      assert a + b == b;
    } else if b == [] {
      assert a + b == a;
    } else if columns != [] {
      var c := CanonicalizeColumns(Grid(columns, a + b)).columns;
      SameCanonicalColumns(Grid(columns, a + b), Grid(columns, a));
      SameCanonicalColumns(Grid(columns, a + b), Grid(columns, b));
      AllStudentsConcat(parse, c, a, b);
      KeepListedConcat(AllStudents(parse, c, a), AllStudents(parse, c, b));
    }
  }

  /** Canonicalisation renames columns by their names alone. */
  lemma SameCanonicalColumns<T>(g: Grid<T>, h: Grid<T>)
    requires g.columns == h.columns && !g.IsEmpty() && !h.IsEmpty()
    ensures CanonicalizeColumns(g).columns == CanonicalizeColumns(h).columns
  {
  }
}

=== FILE: tables.dfy ===
/** A spreadsheet read into memory: named columns over rows of cells.
    This stands in for the pandas DataFrame the application builds from
    `get_all_records()`. */
module Tables {

  datatype Grid<T> = Grid(columns: seq<string>, rows: seq<seq<T>>) {
    /** pandas' `DataFrame.empty`: true when either axis has length 0. */
    predicate IsEmpty() {
      |rows| == 0 || |columns| == 0
    }
  }

  /** Position of the first column called `name`. */
  function IndexOf(columns: seq<string>, name: string): (i: nat)
    requires name in columns
    ensures i < |columns| && columns[i] == name
    ensures forall j :: 0 <= j < i ==> columns[j] != name
  {
    if columns[0] == name then 0 else 1 + IndexOf(columns[1..], name)
  }

  /** The text in column `name` of `row`, or `""` when the column is
      missing (`load_students` adds missing columns filled with `""`). */
  function Cell(columns: seq<string>, row: seq<string>, name: string): string {
    if name in columns && IndexOf(columns, name) < |row| then row[IndexOf(columns, name)] else ""
  }
}

=== FILE: text.dfy ===
/** Python string primitives the application relies on: `str.strip()`,
    `str.lower()`, `str.replace()` of one character, `str(int)`, and the
    Turkish-letter folding `_simplify_token` built from them. */
module Text {
  import opened Wrappers

  /** Python's `int(float(t))`, abstracted: `None` when it raises. */
  type IntParse = string -> Option<int>

  // ---------------------------------------------------------------------
  // str.strip()
  // ---------------------------------------------------------------------

  /** The characters for which Python's `str.isspace()` holds; `strip()`
      with no argument removes exactly these at both ends. */
  predicate IsSpace(c: char) {
    c == ' ' || ('\t' <= c <= '\r') || ('\U{1C}' <= c <= '\U{1F}')
    || c == '\U{85}' || c == '\U{A0}' || c == '\U{1680}'
    || ('\U{2000}' <= c <= '\U{200A}') || c == '\U{2028}' || c == '\U{2029}'
    || c == '\U{202F}' || c == '\U{205F}' || c == '\U{3000}'
  }

  /** `str.lstrip()`: drops leading whitespace, keeps the rest as a suffix. */
  function TrimStart(s: string): (r: string)
    ensures |r| <= |s| && r == s[|s| - |r|..]
    ensures forall i :: 0 <= i < |s| - |r| ==> IsSpace(s[i])
    ensures r == [] || !IsSpace(r[0])
  {
    if |s| > 0 && IsSpace(s[0]) then TrimStart(s[1..]) else s
  }

  /** `str.rstrip()`: drops trailing whitespace, keeps the rest as a prefix. */
  function TrimEnd(s: string): (r: string)
    ensures |r| <= |s| && r == s[..|r|]
    ensures forall i :: |r| <= i < |s| ==> IsSpace(s[i])
    ensures r == [] || !IsSpace(r[|r| - 1])
  {
    if |s| > 0 && IsSpace(s[|s| - 1]) then TrimEnd(s[..|s| - 1]) else s
  }

  /** `r` is a slice of `s` with nothing but whitespace cut on either side. */
  predicate IsTrimOf(s: string, r: string) {
    exists i, j :: 0 <= i <= j <= |s| && r == s[i..j]
      && (forall k :: 0 <= k < i ==> IsSpace(s[k])) && (forall k :: j <= k < |s| ==> IsSpace(s[k]))
  }

  /** `str.strip()`. */
  function Strip(s: string): (r: string)
    ensures r == [] || (!IsSpace(r[0]) && !IsSpace(r[|r| - 1]))
    ensures forall c :: c in r ==> c in s
    ensures r == [] <==> forall i :: 0 <= i < |s| ==> IsSpace(s[i])
    ensures IsTrimOf(s, r)
  {
    TrimBothSpaces(s);
    TrimEnd(TrimStart(s))
  }

  /** What `TrimStart` then `TrimEnd` removed is whitespace, and what they
      kept comes from the input. */
  lemma TrimBothSpaces(s: string)
    ensures forall c :: c in TrimEnd(TrimStart(s)) ==> c in s
    ensures TrimEnd(TrimStart(s)) == [] ==> forall i :: 0 <= i < |s| ==> IsSpace(s[i])
    ensures IsTrimOf(s, TrimEnd(TrimStart(s)))
  {
    var t := TrimStart(s);
    var r := TrimEnd(t);
    assert forall c :: c in r ==> c in t;
    if r == [] {
      // A non-empty `t` starts with a non-space, which `TrimEnd` keeps.
      assert t == [];
    }
    TrimSlice(s, t, r);
  }

  /** Cutting leading spaces to `t`, then trailing spaces to `r`, leaves a
      slice of `s` with only spaces around it. */
  lemma TrimSlice(s: string, t: string, r: string)
    requires |t| <= |s| && t == s[|s| - |t|..] && forall i :: 0 <= i < |s| - |t| ==> IsSpace(s[i])
    requires |r| <= |t| && r == t[..|r|] && forall i :: |r| <= i < |t| ==> IsSpace(t[i])
    ensures IsTrimOf(s, r)
  {
    var i, j := |s| - |t|, |s| - |t| + |r|;
    assert r == s[i..j];
    forall k | j <= k < |s|
      ensures IsSpace(s[k])
    {
      assert s[k] == t[k - i];
    }
    assert forall k :: 0 <= k < i ==> IsSpace(s[k]);
  }

  /** A string with no surrounding whitespace is its own strip. */
  lemma StripClean(s: string)
    requires s == [] || (!IsSpace(s[0]) && !IsSpace(s[|s| - 1]))
    ensures Strip(s) == s
  {
    if s != [] {
      assert TrimStart(s) == s;
      assert TrimEnd(s) == s;
    }
  }

  /** Stripping twice is stripping once. */
  lemma StripIdempotent(s: string)
    ensures Strip(Strip(s)) == Strip(s)
  {
    StripClean(Strip(s));
  }

  // ---------------------------------------------------------------------
  // str.lower()
  // ---------------------------------------------------------------------

  /** The Latin Extended-A capitals whose lower case is the next code
      point (this block holds Ğ and Ş). */
  predicate IsPairedCapital(c: char) {
    var n := c as int;
    (0x100 <= n <= 0x12F && n % 2 == 0) || (0x132 <= n <= 0x137 && n % 2 == 0)
    || (0x139 <= n <= 0x148 && n % 2 == 1) || (0x14A <= n <= 0x177 && n % 2 == 0)
    || (0x179 <= n <= 0x17E && n % 2 == 1)
  }

  /** Python's lower-casing of one character, for the capitals of ASCII,
      Latin-1 (which holds Ç, Ö and Ü) and Latin Extended-A (which holds
      Ğ, Ş and Ÿ), and for the Kelvin and Angstrom signs, which lower to
      `k` and `å`. İ lowers to two characters, i and a combining dot. */
  function LowerChar(c: char): (r: string)
    ensures 'ı' in r ==> c == 'ı'
    ensures c != 'İ' ==> |r| == 1
  {
    if 'A' <= c <= 'Z' then [(c as int + 32) as char]
    else if '\U{C0}' <= c <= '\U{DE}' && c != '\U{D7}' then [(c as int + 32) as char]
    else if IsPairedCapital(c) then [(c as int + 1) as char]
    else if c == 'Ÿ' then "ÿ"
    else if c == 'İ' then "i\U{0307}"
    else if c == '\U{212A}' then "k"
    else if c == '\U{212B}' then "å"
    else [c]
  }

  /** `str.lower()`: lower-cases each character in turn. */
  function Lower(s: string): (r: string)
    decreases |s|
  {
    if s == [] then [] else LowerChar(s[0]) + Lower(s[1..])
  }

  /** A string of ASCII letters lower-cases letter by letter. */
  lemma {:induction false} LowerAsciiLetters(s: string)
    requires forall i :: 0 <= i < |s| ==> 'A' <= s[i] <= 'Z' || 'a' <= s[i] <= 'z'
    ensures Lower(s) == AsciiLower(s)
    decreases |s|
  {
    if s != [] {
      LowerAsciiLetters(s[1..]);
      assert LowerChar(s[0]) == AsciiLower(s[..1]);
      assert AsciiLower(s) == AsciiLower(s[..1]) + AsciiLower(s[1..]);
    }
  }

  /** Lower-casing restricted to ASCII capitals. */
  function AsciiLower(s: string): (r: string)
    ensures |r| == |s|
  {
    seq(|s|, i requires 0 <= i < |s| => if 'A' <= s[i] <= 'Z' then (s[i] as int + 32) as char else s[i])
  }

  /** Lower-casing first the ASCII capitals and then everything is
      lower-casing everything. */
  lemma {:induction false} LowerAfterAsciiLower(s: string)
    ensures Lower(AsciiLower(s)) == Lower(s)
    decreases |s|
  {
    if s != [] {
      var t := AsciiLower(s);
      LowerAfterAsciiLower(s[1..]);
      assert t[1..] == AsciiLower(s[1..]);
      assert LowerChar(t[0]) == LowerChar(s[0]);
    }
  }

  /** Lower-casing introduces no dotless ı: every ı of the result was
      already in the input. */
  lemma {:induction false} LowerKeepsDotless(s: string)
    ensures 'ı' in Lower(s) ==> 'ı' in s
    decreases |s|
  {
    if s != [] {
      LowerKeepsDotless(s[1..]);
      if 'ı' in Lower(s) {
        assert Lower(s) == LowerChar(s[0]) + Lower(s[1..]);
        if 'ı' in Lower(s[1..]) {
          assert 'ı' in s[1..];
        } else {
          assert 'ı' in LowerChar(s[0]);
          assert s[0] == 'ı';
        }
      }
    }
  }

  // ---------------------------------------------------------------------
  // str.replace(old, new) with one-character arguments
  // ---------------------------------------------------------------------

  /** `s.replace(a, b)` where both `a` and `b` are single characters:
      every `a` becomes `b`, nothing else moves. */
  function Replace(s: string, a: char, b: char): (r: string)
    ensures |r| == |s|
  {
    seq(|s|, i requires 0 <= i < |s| => if s[i] == a then b else s[i])
  }

  /** `s.replace(c, "")`: every occurrence of `c` deleted. */
  function RemoveChar(s: string, c: char): (r: string)
    ensures c !in r
    ensures forall x :: x in r <==> x in s && x != c
    decreases |s|
  {
    if s == [] then []
    else if s[0] == c then RemoveChar(s[1..], c)
    else [s[0]] + RemoveChar(s[1..], c)
  }

  /** Deleting a character keeps every other character as often as it
      occurred and leaves none of the deleted one. */
  lemma {:induction false} RemoveCharCounts(s: string, c: char)
    ensures multiset(RemoveChar(s, c)) == multiset(s)[c := 0]
    decreases |s|
  {
    if s != [] {
      RemoveCharCounts(s[1..], c);
      assert s == [s[0]] + s[1..];
    }
  }

  /** Deleting a character works piecewise: the text keeps its order. */
  lemma {:induction false} RemoveCharConcat(a: string, b: string, c: char)
    ensures RemoveChar(a + b, c) == RemoveChar(a, c) + RemoveChar(b, c)
    decreases |a|
  {
    if a == [] {
      assert a + b == b;
    } else {
      var ab := a + b;
      RemoveCharConcat(a[1..], b, c);
      assert ab[0] == a[0] && ab[1..] == a[1..] + b;
      RemoveCharFirst(ab, c);
      RemoveCharFirst(a, c);
      var head := if a[0] == c then [] else [a[0]];
      var x, y := RemoveChar(a[1..], c), RemoveChar(b, c);
      assert head + (x + y) == (head + x) + y;
    }
  }

  /** Deleting from a non-empty text: its first character, unless it is
      the one deleted, then the rest. */
  lemma RemoveCharFirst(s: string, c: char)
    requires s != []
    ensures RemoveChar(s, c) == (if s[0] == c then [] else [s[0]]) + RemoveChar(s[1..], c)
  {
  }

  /** Deleting a character that does not occur changes nothing. */
  lemma {:induction false} RemoveAbsentChar(s: string, c: char)
    requires c !in s
    ensures RemoveChar(s, c) == s
    decreases |s|
  {
    if s != [] {
      RemoveAbsentChar(s[1..], c);
      assert [s[0]] + s[1..] == s;
    }
  }

  // ---------------------------------------------------------------------
  // _simplify_token
  // ---------------------------------------------------------------------

  /** The six lower-case Turkish letters `_simplify_token` folds away. */
  predicate IsTurkishLetter(c: char) {
    c == 'ç' || c == 'ğ' || c == 'ı' || c == 'ö' || c == 'ş' || c == 'ü'
  }

  /** The ASCII letter a Turkish letter folds to; other characters stay. */
  function FoldChar(c: char): (r: char)
    ensures !IsTurkishLetter(r)
    ensures !IsTurkishLetter(c) ==> r == c
  {
    match c
    case 'ç' => 'c'
    case 'ğ' => 'g'
    case 'ı' => 'i'
    case 'ö' => 'o'
    case 'ş' => 's'
    case 'ü' => 'u'
    case _ => c
  }

  /** `_simplify_token`: the source's chain of six single-letter
      replacements, in the source's order. Upper-case Turkish letters are
      not in the chain and survive. */
  function SimplifyToken(s: string): string {
    Replace(Replace(Replace(Replace(Replace(Replace(
      s, 'ç', 'c'), 'ğ', 'g'), 'ı', 'i'), 'ö', 'o'), 'ş', 's'), 'ü', 'u')
  }

  /** The replacement chain folds each character independently. */
  lemma SimplifyTokenPointwise(s: string)
    ensures |SimplifyToken(s)| == |s|
    ensures forall i :: 0 <= i < |s| ==> SimplifyToken(s)[i] == FoldChar(s[i])
  {
  }

  /** `_simplify_token` keeps the length and leaves none of ç ğ ı ö ş ü. */
  lemma SimplifyTokenFolds(s: string)
    ensures |SimplifyToken(s)| == |s|
    ensures forall c :: c in SimplifyToken(s) ==> !IsTurkishLetter(c)
    ensures forall i :: 0 <= i < |s| && !IsTurkishLetter(s[i]) ==> SimplifyToken(s)[i] == s[i]
  {
    SimplifyTokenPointwise(s);
  }

  /** Applying `_simplify_token` twice equals applying it once. */
  lemma SimplifyTokenIdempotent(s: string)
    ensures SimplifyToken(SimplifyToken(s)) == SimplifyToken(s)
  {
    var t := SimplifyToken(s);
    SimplifyTokenPointwise(s);
    SimplifyTokenPointwise(t);
  }

  /** A string without Turkish letters is its own simplification. */
  lemma SimplifyTokenPlain(s: string)
    requires forall c :: c in s ==> !IsTurkishLetter(c)
    ensures SimplifyToken(s) == s
  {
    SimplifyTokenPointwise(s);
  }

  /** Neither folding nor lower-casing can produce a dotless ı, so a key
      spelled with ı is never the result of `lower(_simplify_token(x))`. */
  lemma NoDotlessAfterFoldAndLower(s: string)
    ensures 'ı' !in Lower(SimplifyToken(s))
  {
    SimplifyTokenFolds(s);
    LowerKeepsDotless(SimplifyToken(s));
  }

  // ---------------------------------------------------------------------
  // str(int)
  // ---------------------------------------------------------------------

  function DigitChar(d: int): (c: char)
    requires 0 <= d < 10
    ensures '0' <= c <= '9'
  {
    ('0' as int + d) as char
  }

  /** A string of decimal digits only. */
  predicate IsDigits(s: string) {
    forall i :: 0 <= i < |s| ==> '0' <= s[i] <= '9'
  }

  /** The number a string of decimal digits denotes. */
  function DigitsValue(s: string): nat
    requires IsDigits(s)
    decreases |s|
  {
    if s == [] then 0 else DigitsValue(s[..|s| - 1]) * 10 + (s[|s| - 1] as int - '0' as int)
  }

  /** The decimal digits of `n`. */
  function NatToString(n: nat): (r: string)
    ensures |r| > 0
    ensures forall c :: c in r ==> '0' <= c <= '9'
    ensures IsDigits(r) && DigitsValue(r) == n
    ensures r == "0" || r[0] != '0'
    decreases n
  {
    if n < 10 then [DigitChar(n)]
    else
      var p := NatToString(n / 10);
      var r := p + [DigitChar(n % 10)];
      assert r[..|r| - 1] == p;
      assert r[0] == p[0];
      r
  }

  /** `str(n)` for a Python int: decimal digits, with `-` when negative. */
  function IntToString(n: int): (r: string)
    ensures |r| > 0
    ensures r[0] == '-' <==> n < 0
    ensures n >= 0 ==> IsDigits(r) && DigitsValue(r) == n
    ensures n < 0 ==> IsDigits(r[1..]) && DigitsValue(r[1..]) == -n
    ensures n >= 0 ==> r == "0" || r[0] != '0'
    ensures n < 0 ==> r[1] != '0'
  {
    if n < 0 then
      var r := "-" + NatToString(-n);
      assert r[1..] == NatToString(-n);
      r
    else var r := NatToString(n); assert r[0] in r; r
  }

  /** Different numbers render differently. */
  lemma IntToStringInjective(a: int, b: int)
    ensures IntToString(a) == IntToString(b) ==> a == b
  {
  }

  /** The decimal rendering of a one-digit number is that digit alone. */
  lemma IntToStringDigit(n: int)
    requires 0 <= n < 10
    ensures IntToString(n) == [DigitChar(n)]
  {
  }

  /** `str(n)` is a single digit exactly for 0 <= n < 10. */
  lemma {:induction false} IntToStringSingle(n: int)
    ensures |IntToString(n)| == 1 <==> 0 <= n < 10
  {
    if n >= 10 {
      assert |NatToString(n)| == |NatToString(n / 10)| + 1;
    }
  }
}

=== FILE: wrappers.dfy ===
/** Failure-carrying datatypes shared by the other modules. */
module Wrappers {

  /** Python's `Optional[T]`: `None` or a present value. */
  datatype Option<+T> = None | Some(value: T)

  /** A computation that either yields a value or raises a Python exception. */
  datatype Result<+T> = Ok(value: T) | Err(error: string)
}
